=== FILE: README.md ===
# SWAPI client model

A Dafny model of the pure logic of a small React client for the public Star
Wars API (SWAPI). The client lists films, characters, planets and starships,
lets the user search them, and shows a detail page per resource.

What is modelled:

- **Service layer** (`Api`, `api.dfy`). This covers:
  - the endpoint paths: by id, paged listing, search, and all films;
  - the ok/not-ok rule that both fetch helpers apply to a response;
  - `getIdFromUrl`, modelled as the strings the pattern `/\/(\d+)\/$/` matches;
  - the in-app route built from a resource URL.

  The network is an oracle from a URL to a response: either an answer
  `(ok, statusText, body)` or a rejection.
- **Pagination bar** (`Pagination`). This covers:
  - the window of at most five page numbers;
  - the extra first and last buttons and the ellipses;
  - the previous and next arrows with their enabled flags;
  - the page number each click hands to `onPageChange`.
- **Paged list pages** (`ListPages`, shared by `PlanetsPage`,
  `StarshipsPage` and `CharactersPage`). This covers:
  - the page state and its transitions: mount, search, page change and retry;
  - the URLs each transition requests;
  - `Math.ceil(count / 10)` for the number of pages;
  - the render priority and pagination visibility;
  - the case-insensitive client-side filter.

  The planet page also has a de-duplicated climate list and card display
  rules, and the starship and character pages have their card rules.
- **Film list page** (`FilmsPage`). This covers:
  - the unpaged film list and its search;
  - `toRoman`, with a proof that each numeral in its table denotes its
    episode number;
  - the opening-crawl preview. Every `\r\n`, `\r` or `\n` becomes a space,
    and the result is cut to 150 characters.
- **Detail pages** (`Detail`, `PlanetDetail`, `StarshipDetail`,
  `FilmDetail`, `CharacterDetail`). Each page's mount effect is a fetch plan:
  - which related URLs are requested, as a capped prefix or the whole list;
  - in which stages;
  - how a failure at one stage stops the later ones.

  Each page also has a render priority (loading, error, not found, content)
  and display rules for its figures. `Detail.FetchAll` models
  `Promise.all(urls.map(fetchByUrl))`.
- **Search box** (`SearchBar`). It covers typing, submitting the trimmed
  value, clearing, and when the clear button is visible.
- **Shared helpers.** `Format` holds the `"unknown"` convention, unit
  suffixes and the K/M/B tiers. `Numbers` is a `parseInt` of an optional
  sign and a decimal prefix. `Text` holds ASCII trimming, lower-casing and
  splitting. `Seqs` holds the sequence helpers.

Two places where the pages differ:

- The character list card writes units without a space and shows
  `"Unknown"` for `"unknown"` (`CharactersPage.CardOf`).
- The character detail page writes `" cm"`/`" kg"` with a space and no
  replacement, so it shows `unknown cm`. `CharacterDetail.ContentOf` models
  this as written.

## Model

| member | source | states |
|---|---|---|
| Pagination.Bounds | src/components/UI/Pagination.jsx:8-16 | The window lies within `1..totalPages` and holds at most five pages. It is empty exactly when there are no pages. It holds five pages whenever it stops short of the last page. A valid current page lies inside it, and then the window has `min(5, totalPages)` pages. |
| Pagination.Pages | src/components/UI/Pagination.jsx:11-20 | `pages` is a run of consecutive page numbers within `1..totalPages`, with at most five entries. It is empty exactly when `totalPages < 1`. It contains a valid current page, and then has length `min(5, totalPages)`. |
| Pagination.StripAt | src/components/UI/Pagination.jsx:50-88 | Gives every position of the numbered part: page 1 and the leading ellipsis only when the window starts after 1 or 2, then the window's buttons, then the trailing ellipsis and the last page only when the window stops before `totalPages - 1` or `totalPages`. |
| Pagination.StripEllipsesMarkSkips | src/components/UI/Pagination.jsx:50-88 | Neighbouring number buttons show consecutive pages. Every ellipsis sits between two buttons whose pages are more than one apart. |
| Pagination.StripPagesIncrease | src/components/UI/Pagination.jsx:50-86 | Every number button names a page in `1..totalPages`, and the numbers strictly increase from left to right, so none repeats. |
| Pagination.StripEnds | src/components/UI/Pagination.jsx:50-86 | When there is a page, the first button shows page 1 and the last button shows `totalPages`. With no pages there is no number button. |
| Pagination.StripHighlightsCurrent | src/components/UI/Pagination.jsx:62-70 | Only a button of the current page is highlighted, and a valid current page always has a highlighted button. |
| Pagination.ClicksStayInRange | src/components/UI/Pagination.jsx:24-26 | With the flags the list pages pass, every enabled control asks for a page in `1..totalPages`. Previous asks for `currentPage - 1` and next for `currentPage + 1`. |
| Pagination.DisabledArrowsAreInert | src/components/UI/Pagination.jsx:91-93 | The bar starts with the previous arrow and ends with the next arrow, and each arrow fires exactly when its flag is set. |
| Api.Settle | src/services/api.js:13-17 | A response succeeds exactly when it was answered with `ok`, and then yields its body. A non-ok answer fails with a message from which the status text reads back. A rejection fails with its own reason. |
| Api.ReportedStatusOfFailure | src/services/api.js:15 | The failure message `"Failed to fetch: " + statusText` gives back its status text. |
| Api.FetchHelpersAgree | src/services/api.js:21-27 | `fetchFromApi(endpoint)` and `fetchByUrl(BASE_URL + endpoint)` have the same outcome. |
| Api.GetAllFilms | src/services/api.js:31-34 | Succeeds exactly when the `/films/` request does, and then yields that listing's `results`. |
| Api.GetAll | src/services/api.js:46-48 | The paged helper's outcome is the fetch of `BASE_URL + "/<kind>/?page=<page>"`, with the whole page object. That URL carries no resource id (`Api.PagedUrlHasNoId`). |
| Api.Search | src/services/api.js:54-57 | Succeeds exactly when the search request does, and then yields only the listing's `results`. |
| Api.GetById | src/services/api.js:64-66 | The by-id helper's outcome is the fetch of `BASE_URL + "/<kind>/<id>/"`, a URL from which `getIdFromUrl` reads back the same id (`Api.IdRoundTrip`). |
| Api.GetIdFromUrl | src/services/api.js:4-8 | An id is returned only when the URL ends with `/`, a non-empty digit run and `/`, and the id is that run. Whenever the URL has that shape, that run is returned, so the result is `null` exactly when the shape is absent. |
| Api.DigitSuffixLengthIs | src/services/api.js:6 | A digit suffix that is preceded by a non-digit is the longest digit suffix. The regex's digit group cannot start earlier. |
| Api.SegmentFixesDigitSuffix | src/services/api.js:6 | When a URL ends with an id segment, the digit run before the final slash is exactly that id. |
| Api.IdSegmentOfConcat | src/services/api.js:6 | `p + "/" + id + "/"` has the id segment `id` for any non-empty digit string. |
| Api.IdRoundTrip | src/services/api.js:36-38 | For every kind and every non-empty digit id, reading the id back from the by-id URL gives the id unchanged, leading zeros included. |
| Api.PagedUrlHasNoId | src/services/api.js:46-48 | A paged listing URL yields no id. |
| Api.AllFilmsUrlHasNoId | src/services/api.js:31-33 | The `/films/` listing URL yields no id. |
| Api.DetailRouteOfCanonicalUrl | src/pages/Planets.jsx:127 | A resource with a canonical SWAPI URL links to `<route>/<id>` with its own id. |
| Api.DetailRoute | src/pages/Planets.jsx:127 | A card or link starts with its route and a slash, and when the URL carries an id, the rest of the link is that id. |
| ListPages.TotalPages | src/pages/Planets.jsx:29 | The number of pages is the least `p` with `(p-1)*10 < count <= p*10`. |
| ListPages.TotalPagesUnique | src/pages/Planets.jsx:29 | Only one page count satisfies the bounds. It is 0 for an empty listing and at least 1 otherwise. |
| ListPages.Load | src/pages/Planets.jsx:24-26 | A non-empty query awaits the search helper and gets the bare `results` array. Otherwise the page helper is awaited and gets the page object. The outcome is that of the request. |
| ListPages.Begin | src/pages/Planets.jsx:20-21 | A fetch starts loading with the error cleared and the results and position kept. |
| ListPages.Settle | src/pages/Planets.jsx:23-34 | A failure records its message and keeps the old results and counts. A success clears the error and stores the results and count, with a consistent page count. Loading ends either way. |
| ListPages.SettleAsWritten | src/pages/Characters.jsx:24-27 | The code as written loses the page state exactly when a search succeeds. |
| ListPages.Fetch | src/pages/Planets.jsx:19-35 | The error is absent exactly when the request succeeds. Then the shown results are its `results`; on failure the old results and count remain. The query and page are untouched, and loading ends. |
| ListPages.FetchIdempotent | src/pages/Planets.jsx:19-35 | Fetching the same page and query again leaves the state as the first fetch left it. |
| ListPages.SearchCrashesAsWritten | src/pages/Starships.jsx:28-33 | For every successful search, the code as written ends without usable results, while the corrected fetch shows the search results. |
| ListPages.AsWrittenAgreesOffSearch | src/pages/Characters.jsx:24-27 | Without a query, or when the request fails, the code as written and the corrected fetch agree. |
| ListPages.FilterByField | src/pages/Starships.jsx:57-62 | `"all"` keeps the list unchanged. Any other filter keeps only items whose lower-cased field contains the lower-cased filter. Each matching item is kept as often as it occurs, and the result is an order-preserving subsequence. |
| ListPages.FilterByFieldIdempotent | src/pages/Planets.jsx:59-62 | Filtering the filtered list again changes nothing. |
| ListPages.FilterDropsMissingField | src/pages/Planets.jsx:61 | Any filter other than `"all"` drops items whose field is missing. |
| ListPages.FilterIgnoresCase | src/pages/Planets.jsx:61 | Lower-casing the filter value does not change the result, unless it turns it into `"all"`. |
| ListPages.Mount | src/pages/Planets.jsx:37-39 | Mounting requests page 1 of the unfiltered listing and ends on page 1 with no query. |
| ListPages.HandleSearch | src/pages/Planets.jsx:41-45 | A search stores the query and goes back to page 1. It sends only the page-1 request for the query. The request is sent twice exactly when the page was not already 1, because the page change re-runs the effect. |
| ListPages.HandleSearchIsOneFetch | src/pages/Starships.jsx:45-49 | Whether the request goes out once or twice, the search ends in the state that a single fetch produces. |
| ListPages.HandlePageChange | src/pages/Planets.jsx:47-50 | The page is stored. A request for the new page with the stored query is sent exactly when the page changes. |
| ListPages.Retry | src/pages/Planets.jsx:113 | Retry requests the current page with the current query, and keeps both. |
| ListPages.RetryAfterFailureIsFreshFetch | src/pages/Planets.jsx:19-35 | A failed fetch leaves nothing behind but its message. Retrying it, whatever the network answers now, ends in the state a first fetch of the same page and query would have reached from the state before the failure. |
| ListPages.Render | src/pages/Planets.jsx:108-121 | The priority is: spinner exactly while loading, else the error, else the empty message exactly when nothing survives the filter, else the cards. |
| ListPages.SearchHidesPager | src/pages/Planets.jsx:215-221 | After a successful search with matches, the matches show without pagination. After a failed search, its error shows. |
| ListPages.MountShowsFirstPage | src/pages/Starships.jsx:211-217 | After mounting, the first page shows with pagination on page 1. There is no previous page, and a next page exists exactly when the count exceeds one page. |
| PlanetsPage.FilterByClimate | src/pages/Planets.jsx:59-62 | `"all"` keeps every planet. Any other filter keeps only planets with a climate that contains the filter, ignoring case, preserving multiplicity and order. |
| PlanetsPage.ClimateSegmentsRejoin | src/pages/Planets.jsx:55 | Joining a climate's `", "`-segments again gives the climate back. |
| PlanetsPage.InAllSegments | src/pages/Planets.jsx:55 | A string occurs in the flattened segment list exactly when it is a segment of some planet's climate. |
| PlanetsPage.Climates | src/pages/Planets.jsx:53-56 | The list starts with `"all"`. The rest are pairwise distinct. They are exactly the climate segments of the loaded planets, in order of first appearance. |
| PlanetsPage.TerrainBadge | src/pages/Planets.jsx:159 | A missing terrain shows `"Unknown"`. A present terrain shows its text before the first comma when that text is non-empty, and `"Unknown"` when it is empty. Any badge other than `"Unknown"` is that first segment. |
| PlanetsPage.CardOf | src/pages/Planets.jsx:125-210 | A planet card links into `/planets/`, always shows a non-empty terrain badge, and shows the number of the planet's resident and film URLs. Its population is abbreviated exactly when it is a known number of at least 1000, whatever the planet's URL. |
| PlanetsPage.DiameterLabel | src/pages/Planets.jsx:174-176 | `"Unknown"` shows exactly for `"unknown"`. Otherwise the number is followed by `" km"`. |
| PlanetsPage.CardOfCanonicalPlanet | src/pages/Planets.jsx:168 | The card links to the planet's own route. Its population is abbreviated exactly when it parses to a number of at least 1000. |
| PlanetsPage.View | src/pages/Planets.jsx:115-124 | Cards show exactly the planets the climate filter keeps. The empty message shows exactly when none survive. |
| PlanetsPage.AllClimatesShowsEverything | src/pages/Planets.jsx:60 | With `"all"`, every loaded planet is shown. |
| Format.Compact | src/pages/Planets.jsx:65-73 | `"unknown"` shows as `"Unknown"`. Text without a leading integer shows unchanged. A number is abbreviated by the largest of 1e9, 1e6 and 1e3 it reaches, and is shown whole below 1000. |
| Format.CompactTierBands | src/pages/Starships.jsx:65-73 | A number gets tier `t` exactly when it lies in `t`'s band. |
| Format.Plain | src/pages/PlanetDetail.jsx:16-21 | `"unknown"` shows as `"Unknown"` and non-numeric text unchanged. A number is shown whole, exactly when it parses, and never abbreviated. |
| Format.CompactAgreesWithPlain | src/pages/StarshipDetail.jsx:16-20 | The list and detail formatters agree exactly when there is nothing to abbreviate: the value is unknown, non-numeric, or below 1000. |
| Format.MeasureOrUnknown | src/pages/PlanetDetail.jsx:154-156 | `"Unknown"` shows exactly for `"unknown"`. Otherwise the parsed number, or NaN, is followed by the unit. |
| Format.TextOrUnknown | src/pages/PlanetDetail.jsx:202-204 | `"unknown"` shows as `"Unknown"`. Any other value shows as the value followed by the unit. |
| Format.TextOrUnknownFaithful | src/pages/PlanetDetail.jsx:249-262 | With a unit not ending in `n`, `"Unknown"` shows exactly for `"unknown"`, and different values show differently. |
| Numbers.ParseShowInt | src/pages/Planets.jsx:67 | `parseInt` reads back any printed integer, whatever text follows it. |
| Numbers.ParseIntSkipsWhitespace | src/pages/Planets.jsx:67 | Leading whitespace does not change what `parseInt` reads. |
| Numbers.ParseIntWithoutDigits | src/pages/Planets.jsx:68 | Text with no digit at all is NaN. |
| StarshipsPage.FilterByClass | src/pages/Starships.jsx:57-62 | `"all"` keeps every ship. Any other filter keeps only ships with a class that contains the filter, ignoring case, preserving multiplicity and order. |
| StarshipsPage.CardOfCanonicalShip | src/pages/Starships.jsx:127 | A ship with a canonical URL links to its own route. |
| StarshipsPage.CardOf | src/pages/Starships.jsx:125-206 | A starship card links into `/starships/`. Its cost (`formatCredits`, lines 65-73) shows "Unknown" for `"unknown"`, text without a leading integer as it is, and otherwise the parsed number, abbreviated exactly when it is at least 1000. |
| StarshipsPage.View | src/pages/Starships.jsx:115-120 | Cards show exactly the ships the class filter keeps. "No starships found" shows exactly when none survive. |
| StarshipsPage.NoMatchShowsNothingFound | src/pages/Starships.jsx:115-120 | A filter matching none of the loaded ships shows the empty message. |
| CharactersPage.CardOf | src/pages/Characters.jsx:121-132 | Height and mass show `"Unknown"` exactly for `"unknown"`. Otherwise they show the value followed by `cm` or `kg`. |
| CharactersPage.HeightShownFaithfully | src/pages/Characters.jsx:121-124 | Two cards that show the same height come from the same height value. |
| CharactersPage.CardOfCanonicalCharacter | src/pages/Characters.jsx:92 | A character with a canonical URL links to its own route. |
| CharactersPage.View | src/pages/Characters.jsx:80-85 | "No characters found" shows exactly when the loaded list is empty. Otherwise the cards are the loaded characters. |
| FilmsPage.ToRoman | src/pages/Films.jsx:38-41 | A numeral is shown exactly for episodes 1 to 10. Any other episode shows its own number. |
| FilmsPage.ToRomanDenotesEpisode | src/pages/Films.jsx:39-40 | The numeral shown for episode `n` in 1..10 has the value `n` under the usual Roman rule. |
| FilmsPage.ToRomanInjective | src/pages/FilmDetail.jsx:16-19 | Different episodes never show the same thing. |
| FilmsPage.Normalise | src/pages/Films.jsx:154 | The normalised crawl contains no CR or LF, and is no longer than the crawl. |
| FilmsPage.NormaliseKeepsPlainText | src/pages/Films.jsx:154 | Text without line breaks is unchanged. |
| FilmsPage.NormaliseIdempotent | src/pages/Films.jsx:154 | Normalising twice is normalising once. |
| FilmsPage.NormaliseConcat | src/pages/Films.jsx:154 | Normalisation works piece by piece when the cut does not split a CR LF pair. |
| FilmsPage.LineEndingsBecomeSpaces | src/pages/Films.jsx:154 | Each of `\r\n`, `\r` and `\n` between plain text becomes exactly one space. |
| FilmsPage.Preview | src/pages/Films.jsx:154 | The preview has no line breaks. It is a prefix of the normalised crawl, of length `min(150, length)`. |
| FilmsPage.CardOf | src/pages/Films.jsx:79-175 | A film card links into `/films/` and shows a Roman numeral exactly for episodes 1 to 10. Its preview is one line: at most 150 characters from the start of the normalised crawl, always followed by `...`. |
| FilmsPage.Fetch | src/pages/Films.jsx:14-26 | The error is absent exactly when the request succeeds. Then the list is its `results`, and on failure the old list remains. |
| FilmsPage.Mount | src/pages/Films.jsx:28-30 | Mounting requests the full film list. |
| FilmsPage.HandleSearch | src/pages/Films.jsx:32-35 | A search stores the query and sends exactly one request for it. |
| FilmsPage.Retry | src/pages/Films.jsx:68 | Retry requests the stored query again. |
| FilmsPage.EmptySearchRestoresFullList | src/pages/Films.jsx:19 | An empty query requests the full list, and ends with the list the page mounted with. |
| FilmsPage.Render | src/pages/Films.jsx:63-75 | The priority is spinner, else error, else "No films found" exactly for an empty list, else one card per film in order, with no pagination. |
| Detail.FetchAll | src/pages/PlanetDetail.jsx:43-44 | Succeeds exactly when every URL's fetch succeeds, and then yields every body in URL order. On failure, the message is that of some failed URL. |
| Detail.FetchAllAppend | src/pages/PlanetDetail.jsx:34-37 | Fetching two URL lists together succeeds exactly when both do, and then yields the concatenated bodies. |
| Detail.Render | src/pages/PlanetDetail.jsx:57-59 | The priority is spinner exactly while loading, else the error, else "not found" exactly when there is no entity, else the content built from it. |
| Detail.Links | src/pages/PlanetDetail.jsx:328-331 | There is one route per related resource, in order, built from its URL. |
| PlanetDetail.ResidentUrls | src/pages/PlanetDetail.jsx:33-36 | The resident requests are the first `min(8, n)` resident URLs, in order. |
| PlanetDetail.Mount | src/pages/PlanetDetail.jsx:23-55 | Stages run in the order planet, residents, films. A failure at any stage stores that stage's error message, and the requests stop after the failing stage. The error stays null exactly when every stage succeeds, and then every film is fetched. Loading always ends. |
| PlanetDetail.ContentOf | src/pages/PlanetDetail.jsx:312-323 | "Showing X of Y" appears exactly when residents were loaded and the planet has more than eight. The population is never abbreviated. |
| PlanetDetail.TerrainBadge | src/pages/PlanetDetail.jsx:117 | A missing terrain shows nothing. A present terrain shows its longest prefix without a comma: the badge stops at the first comma or at the end of the text. |
| PlanetDetail.MountEndsInErrorOrContent | src/pages/PlanetDetail.jsx:57-59 | After mounting, the page shows an error or the planet, never "Planet not found". It shows content exactly when no stage failed. |
| PlanetDetail.CaptionAfterMount | src/pages/PlanetDetail.jsx:321-323 | On a loaded page, the caption reads "Showing 8 of Y" exactly when the planet has more than eight residents. |
| PlanetDetail.FiguresShownFaithfully | src/pages/PlanetDetail.jsx:249-262 | Surface water, rotation and orbit read "Unknown" exactly for `"unknown"`. |
| Text.FirstSegmentIsCommaFreePrefix | src/pages/PlanetDetail.jsx:117 | The first comma segment is the longest comma-free prefix of the text. |
| StarshipDetail.Mount | src/pages/StarshipDetail.jsx:23-55 | Stages run in the order starship, all pilots, all films. A failure at any stage stores that stage's error message and stops the later stages. The error stays null exactly when every stage succeeds. Loading always ends. |
| StarshipDetail.ContentOf | src/pages/StarshipDetail.jsx:118 | The manufacturer badge is the text before the first comma. The cost is never abbreviated. Cargo reads "Unknown" exactly for `"unknown"`. "Known Pilots" counts the ship's pilot URLs. |
| StarshipDetail.MountEndsInErrorOrContent | src/pages/StarshipDetail.jsx:57-59 | After mounting, the page shows an error or the ship, never "Starship not found". On a loaded page, every pilot is linked. |
| FilmDetail.CharacterUrls | src/pages/FilmDetail.jsx:31-33 | The character requests are the first `min(6, n)` character URLs, in order. |
| FilmDetail.PlanetUrls | src/pages/FilmDetail.jsx:38-40 | The planet requests are the first `min(4, n)` planet URLs, in order. |
| FilmDetail.Mount | src/pages/FilmDetail.jsx:21-51 | Stages run in the order film, characters, planets. Planets are requested only after every character request succeeded. A failure at any stage stores that stage's error message. The error stays null exactly when every stage succeeds. Loading always ends. |
| FilmDetail.ContentOf | src/pages/FilmDetail.jsx:86 | A numeral is shown exactly for episodes 1 to 10. The counts are those of the film's URL lists. |
| FilmDetail.CharacterFailureSkipsPlanets | src/pages/FilmDetail.jsx:34-44 | One failed character request means no planet is requested and the page shows the failure. |
| FilmDetail.MountEndsInErrorOrContent | src/pages/FilmDetail.jsx:53-55 | After mounting, the page shows an error or the film, never "Film not found". At most six characters and four planets are linked. |
| CharacterDetail.HomeworldUrls | src/pages/CharacterDetail.jsx:36-39 | The homeworld is requested exactly when the field is non-empty. |
| CharacterDetail.FilmUrls | src/pages/CharacterDetail.jsx:42-44 | The film requests are the first `min(5, n)` film URLs, in order. |
| CharacterDetail.StarshipUrls | src/pages/CharacterDetail.jsx:49-51 | The starship requests are the first `min(3, n)` starship URLs, in order. |
| CharacterDetail.FetchHomeworld | src/pages/CharacterDetail.jsx:36-39 | Without a homeworld, the stage succeeds with nothing. Otherwise it has the outcome of the homeworld request. |
| CharacterDetail.Mount | src/pages/CharacterDetail.jsx:25-62 | Stages run in the order character, homeworld, films, starships. A failure at any stage stores that stage's error message and stops the later stages. The error stays null exactly when every stage succeeds. Loading always ends. |
| CharacterDetail.ContentOf | src/pages/CharacterDetail.jsx:161-174 | The homeworld link is present exactly when a homeworld was loaded, and leads to its route. Height and mass are the raw value followed by `" cm"` and `" kg"`, so `"Unknown"` never appears on this page. |
| CharacterDetail.HomeworldLinkAfterMount | src/pages/CharacterDetail.jsx:64-66 | After mounting, the page shows an error or the character. On a loaded page, the homeworld link is there exactly when the character has a homeworld URL. |
| SearchBar.InitialValue | src/components/UI/SearchBar.jsx:6-8 | The box starts with `initialValue`, or `""` without one. |
| SearchBar.Handle | src/components/UI/SearchBar.jsx:10-18 | Typing replaces the value and emits nothing. Submitting emits the trimming of the value. Clearing empties the value and emits `""`. |
| SearchBar.ClearButtonFollowsEvents | src/components/UI/SearchBar.jsx:43 | The clear button disappears after a clear, appears after typing exactly when the typed text is non-empty, and keeps its visibility across a submit. |
| SearchBar.EmittedIsTrimmed | src/components/UI/SearchBar.jsx:12 | Every emitted query has no whitespace at either end. |
| SearchBar.SubmitTrimmedValue | src/components/UI/SearchBar.jsx:12 | Submitting an already-trimmed value emits it unchanged. |
| SearchBar.SubmitBlankIsClear | src/components/UI/SearchBar.jsx:15-18 | Submitting only whitespace emits what clearing emits. |
| SearchBar.Run | src/components/UI/SearchBar.jsx:10-18 | Over any run of events, every emitted query is trimmed, and there is at most one per event. |
| SearchBar.ClearShowsFirstPage | src/components/UI/SearchBar.jsx:15-18 | Clearing makes a list page fetch only the unfiltered first page. |
| Text.Trim | src/components/UI/SearchBar.jsx:12 | The result is the text with its leading and trailing whitespace removed, and nothing else. |
| Text.TrimmingIsUnique | src/components/UI/SearchBar.jsx:12 | A text has only one trimming. |
| Text.TrimIdempotent | src/components/UI/SearchBar.jsx:12 | Trimming twice is trimming once. |
| Text.Split | src/pages/Planets.jsx:55 | The first piece is a prefix of the text, and no piece contains the separator. |
| Text.JoinSplit | src/pages/Planets.jsx:55 | Splitting and joining with the same separator gives the text back. |
| Seqs.Dedup | src/pages/Planets.jsx:55 | The result has no duplicates and the same elements as the input, in order of first appearance. |
| Seqs.Filter | src/pages/Planets.jsx:59 | Only kept elements remain, each kept element occurs as often as before, and order is preserved. |

## Left out

- Network I/O, JSON parsing and HTTP are not modelled. A fetch is an oracle from a URL to a response (`Api.Network`); the model states which URLs are requested and the state that results.
- `Promise.all` reports whichever rejection comes first in time. `Detail.FetchAll` reports the first failure in URL order, and its contract says only that the message is that of some failed URL.
- `encodeURIComponent` is a library call, so the search endpoints take it as a function parameter.
- `toLocaleString` and `toFixed(1)` are left out. Digit grouping depends on the locale and the divisions are floating point. `Format.Shown` records the branch, the number and the tier, not the printed digits.
- Large populations and costs are JavaScript doubles. The model uses unbounded integers and does not model precision loss above 2^53.
- `parseInt` is modelled as optional ASCII whitespace, an optional sign and a decimal digit prefix. Hexadecimal `0x` prefixes, radix inference, `-0` and Unicode whitespace are left out.
- `trim()` and `toLowerCase()` are modelled on ASCII. Unicode whitespace and full case folding are left out.
- Stale fetches are not cancelled in the source. When a detail page's id or a list page's page changes while a fetch is pending, the later answer can overwrite newer state. This concurrency is not modelled: each transition's fetches settle before the next event.
- `window.scrollTo` in `handlePageChange`, markup, styling, animation and router wiring are presentation and are not modelled.
- The climate and class `<select>` offer hard-coded options. `PlanetsPage.Climates` models the computed but unused climate list as a pure function.
- ListPages.Render treats any stored error as an error. The page tests the message's truthiness (src/pages/Planets.jsx:110), so an empty message `""` would show the list instead; only a rejection with an empty reason can store one.
- FilmsPage.Render treats any stored error as an error, while src/pages/Films.jsx:65 tests truthiness and would show the list for an empty message `""`.
- Detail.Render treats any stored error as an error, while `if (error)` (src/pages/PlanetDetail.jsx:58) would fall through to the entity or "not found" for an empty message `""`.
- FilmsPage.Preview counts the 150 characters in Unicode scalar values. `.slice(0, 150)` counts UTF-16 code units, so the two differ when the crawl holds characters outside the Basic Multilingual Plane.
- The detail pages' figures that are only copied from the entity (name, model, crew, dates) carry no rule and are not modelled.

## Findings

| source | as written | input that shows it | evidently intended | confidence | as-written member | corrected member |
|---|---|---|---|---|---|---|
| src/pages/Planets.jsx:24-29 | A paged list page reads `data.results` and `data.count` from the fetch result. With a query, the fetch result is the bare array that `search*` returns (src/services/api.js:68-70), so the results become `undefined` and the next render throws on them: at `planets.flatMap` (src/pages/Planets.jsx:55), at `starships.filter` (src/pages/Starships.jsx:57) and at `characters.length` (src/pages/Characters.jsx:80). The same code is in src/pages/Starships.jsx:28-33 and src/pages/Characters.jsx:24-27. | Any non-empty search query whose request succeeds, e.g. `"tatooine"` on the planet page | A search shows the returned array as the results, with its length as the count | not executed | ListPages.SearchCrashesAsWritten | ListPages.Fetch |

=== FILE: api.dfy ===
/** The service layer over the public SWAPI REST service: endpoint URLs,
    the ok/not-ok mapping of responses, the list/search/by-id helpers, and
    the extraction of a resource id from a SWAPI URL. The network is an
    oracle from a URL to a response. */
module Api {
  import opened Wrappers
  import Numbers

  const BaseUrl: string := "https://swapi.dev/api"

  /** The resource collections the service layer addresses. */
  datatype Kind = Films | People | Planets | Starships | Vehicles | Species

  function Segment(k: Kind): string {
    match k
    case Films => "films"
    case People => "people"
    case Planets => "planets"
    case Starships => "starships"
    case Vehicles => "vehicles"
    case Species => "species"
  }

  /** Films are the one collection without a paged `getAll*(page)` helper. */
  predicate HasPagedList(k: Kind) {
    k != Films
  }

  /** `/<kind>/<id>/`, the endpoint of `get*ById(id)`; the id is used verbatim. */
  function ByIdPath(k: Kind, id: string): string {
    "/" + Segment(k) + "/" + id + "/"
  }

  /** `/<kind>/?page=<page>`, the endpoint of `getAll*(page)`. */
  function PagePath(k: Kind, page: int): string {
    "/" + Segment(k) + "/?page=" + Numbers.ShowInt(page)
  }

  /** `/<kind>/?search=<encoded query>`; `encode` stands for `encodeURIComponent`. */
  function SearchPath(k: Kind, query: string, encode: string -> string): string {
    "/" + Segment(k) + "/?search=" + encode(query)
  }

  /** `/films/`, the endpoint of `getAllFilms()`. */
  const AllFilmsPath: string := "/films/"

  /** What `fetch(url)` produces: an HTTP answer with its `ok` flag, status
      text and JSON body, or a rejection (no answer, or a body that is not
      JSON) with the rejection's message. */
  datatype Response<+B> =
    | Answered(ok: bool, statusText: string, body: B)
    | Rejected(reason: string)

  /** The network: the response to each URL. */
  type Network<!B> = string -> Response<B>

  const FailurePrefix: string := "Failed to fetch: "

  /** The error message a non-ok answer is turned into. */
  function FailureMessage(statusText: string): string {
    FailurePrefix + statusText
  }

  /** The status text a failure message reports, when it is one. */
  function ReportedStatus(message: string): Option<string> {
    if |message| >= |FailurePrefix| && message[..|FailurePrefix|] == FailurePrefix
    then Some(message[|FailurePrefix|..]) else None
  }

  /** Reading back a failure message gives the status text it was made from. */
  lemma ReportedStatusOfFailure(statusText: string)
    ensures ReportedStatus(FailureMessage(statusText)) == Some(statusText)
  {
    assert FailureMessage(statusText)[..|FailurePrefix|] == FailurePrefix;
    assert FailureMessage(statusText)[|FailurePrefix|..] == statusText;
  }

  /** The shared rule of both fetch helpers: an ok answer yields its body, a
      non-ok answer throws an error naming the status text, and a rejection
      propagates. */
  function Settle<B>(r: Response<B>): (res: Result<B>)
    ensures res.Ok? <==> r.Answered? && r.ok
    ensures res.Ok? ==> res.value == r.body
    ensures r.Answered? && !r.ok ==> ReportedStatus(res.message) == Some(r.statusText)
    ensures r.Rejected? ==> res.message == r.reason
  {
    match r
    case Rejected(reason) => Err(reason)
    case Answered(ok, statusText, body) =>
      ReportedStatusOfFailure(statusText);
      if ok then Ok(body) else Err(FailureMessage(statusText))
  }

  /** `fetchFromApi(endpoint)`: fetch `BaseUrl + endpoint`. */
  function FetchFromApi<B>(endpoint: string, net: Network<B>): Result<B> {
    Settle(net(BaseUrl + endpoint))
  }

  /** `fetchByUrl(url)`: fetch a URL as given (the links between resources). */
  function FetchByUrl<B>(url: string, net: Network<B>): Result<B> {
    Settle(net(url))
  }

  /** Both helpers apply the same rule: fetching an endpoint is fetching its full URL. */
  lemma FetchHelpersAgree<B>(endpoint: string, net: Network<B>)
    ensures FetchFromApi(endpoint, net) == FetchByUrl(BaseUrl + endpoint, net)
  {
  }

  /** SWAPI's page object: the total number of matches and this page's results. */
  datatype Listing<+T> = Listing(count: int, results: seq<T>)

  /** `getAllFilms()`: the `results` of the `/films/` listing. */
  function GetAllFilms<T>(net: Network<Listing<T>>): (r: Result<seq<T>>)
    ensures r.Ok? <==> FetchByUrl(BaseUrl + AllFilmsPath, net).Ok?
    ensures r.Ok? ==> r.value == FetchByUrl(BaseUrl + AllFilmsPath, net).value.results
  {
    var data :- FetchFromApi(AllFilmsPath, net);
    Ok(data.results)
  }

  /** `getAll*(page)`: the whole page object of the paged listing. */
  function GetAll<T>(k: Kind, page: int, net: Network<Listing<T>>): (r: Result<Listing<T>>)
    requires HasPagedList(k)
    ensures r == FetchByUrl(BaseUrl + PagePath(k, page), net)
  {
    FetchFromApi(PagePath(k, page), net)
  }

  /** `search*(query)`: only the `results` array of the search listing. */
  function Search<T>(k: Kind, query: string, encode: string -> string, net: Network<Listing<T>>): (r: Result<seq<T>>)
    ensures r.Ok? <==> FetchByUrl(BaseUrl + SearchPath(k, query, encode), net).Ok?
    ensures r.Ok? ==> r.value == FetchByUrl(BaseUrl + SearchPath(k, query, encode), net).value.results
  {
    var data :- FetchFromApi(SearchPath(k, query, encode), net);
    Ok(data.results)
  }

  /** `get*ById(id)`: the resource at `/<kind>/<id>/`. */
  function GetById<T>(k: Kind, id: string, net: Network<T>): (r: Result<T>)
    ensures r == FetchByUrl(BaseUrl + ByIdPath(k, id), net)
  {
    FetchFromApi(ByIdPath(k, id), net)
  }

  /** Length of the longest suffix of `s` that consists of digits. */
  function DigitSuffixLength(s: string): (n: nat)
    ensures n <= |s| && Numbers.AllDigits(s[|s| - n..])
    ensures n == |s| || !Numbers.IsDigit(s[|s| - n - 1])
  {
    if |s| > 0 && Numbers.IsDigit(s[|s| - 1]) then 1 + DigitSuffixLength(s[..|s| - 1]) else 0
  }

  /** `url` ends with `/`, then the non-empty digit run `id`, then `/`: the
      strings the pattern `/\/(\d+)\/$/` matches, with `id` as its group. */
  predicate EndsWithIdSegment(url: string, id: string) {
    && |id| > 0 && Numbers.AllDigits(id)
    && |url| >= |id| + 2
    && url[|url| - 1] == '/'
    && url[|url| - |id| - 2] == '/'
    && url[|url| - |id| - 1..|url| - 1] == id
  }

  /** `getIdFromUrl(url)`: the digit run between the last two slashes when the
      URL ends with `/<digits>/`, otherwise `null` (`None`). The id stays a
      string, so leading zeros are kept. */
  function GetIdFromUrl(url: string): (r: Option<string>)
    ensures r.Some? ==> EndsWithIdSegment(url, r.value)
    ensures forall id :: EndsWithIdSegment(url, id) ==> r == Some(id)
  {
    SegmentFixesDigitSuffix(url);
    if |url| == 0 || url[|url| - 1] != '/' then None
    else
      var t := url[..|url| - 1];
      var n := DigitSuffixLength(t);
      if n == 0 || n == |t| || t[|t| - n - 1] != '/' then None
      else
        assert t[|t| - n..] == url[|url| - n - 1..|url| - 1];
        Some(t[|t| - n..])
  }

  /** A digit suffix of length `k` preceded by a non-digit is the longest one. */
  lemma {:induction false} DigitSuffixLengthIs(s: string, k: nat)
    requires k <= |s| && Numbers.AllDigits(s[|s| - k..])
    requires k == |s| || !Numbers.IsDigit(s[|s| - k - 1])
    ensures DigitSuffixLength(s) == k
    decreases k
  {
    if k > 0 {
      var s' := s[..|s| - 1];
      assert Numbers.IsDigit(s[|s| - k..][k - 1]);
      assert s'[|s'| - (k - 1)..] == s[|s| - k..|s| - 1];
      DigitSuffixLengthIs(s', k - 1);
    }
  }

  /** When `url` ends with an id segment, the digit suffix before the final
      slash is exactly that id. */
  lemma SegmentFixesDigitSuffix(url: string)
    ensures forall id :: EndsWithIdSegment(url, id) ==> DigitSuffixLength(url[..|url| - 1]) == |id|
  {
    forall id | EndsWithIdSegment(url, id) ensures DigitSuffixLength(url[..|url| - 1]) == |id| {
      var t := url[..|url| - 1];
      assert t[|t| - |id|..] == id;
      DigitSuffixLengthIs(t, |id|);
    }
  }

  /** `p + "/" + id + "/"` ends with the id segment `id`. */
  lemma IdSegmentOfConcat(p: string, id: string)
    requires |id| > 0 && Numbers.AllDigits(id)
    ensures EndsWithIdSegment(p + "/" + id + "/", id)
  {
    var url := p + "/" + id + "/";
    assert url[|url| - |id| - 1..|url| - 1] == id;
  }

  /** Round trip: the id of the by-id URL of any collection is the id it was built from. */
  lemma IdRoundTrip(k: Kind, id: string)
    requires |id| > 0 && Numbers.AllDigits(id)
    ensures GetIdFromUrl(BaseUrl + ByIdPath(k, id)) == Some(id)
  {
    assert BaseUrl + ByIdPath(k, id) == (BaseUrl + "/" + Segment(k)) + "/" + id + "/";
    IdSegmentOfConcat(BaseUrl + "/" + Segment(k), id);
  }

  /** A paged listing URL ends in a digit, not a slash, so it carries no id. */
  lemma PagedUrlHasNoId(k: Kind, page: int)
    ensures GetIdFromUrl(BaseUrl + PagePath(k, page)) == None
  {
    var digits := Numbers.ShowNat(if page < 0 then -page else page);
    var url := BaseUrl + PagePath(k, page);
    assert url[|url| - 1] == digits[|digits| - 1];
  }

  /** The collection URL `/films/` carries no id either. */
  lemma AllFilmsUrlHasNoId()
    ensures GetIdFromUrl(BaseUrl + AllFilmsPath) == None
  {
    var url := BaseUrl + AllFilmsPath;
    assert url[|url| - 2] == 's';
  }

  /** The in-app route of a resource: `<route>/${getIdFromUrl(url)}`, where a
      `null` id prints as `null`. */
  function DetailRoute(route: string, url: string): (r: string)
    ensures |r| > |route| + 1 && r[..|route| + 1] == route + "/"
    ensures GetIdFromUrl(url).Some? ==> r[|route| + 1..] == GetIdFromUrl(url).value
  {
    var id := match GetIdFromUrl(url) { case Some(id) => id case None => "null" };
    assert (route + "/" + id)[..|route| + 1] == route + "/";
    assert (route + "/" + id)[|route| + 1..] == id;
    route + "/" + id
  }

  /** A card or link for a resource with a canonical SWAPI URL leads to the
      detail route of the same id. */
  lemma DetailRouteOfCanonicalUrl(route: string, k: Kind, id: string)
    requires |id| > 0 && Numbers.AllDigits(id)
    ensures DetailRoute(route, BaseUrl + ByIdPath(k, id)) == route + "/" + id
  {
    IdRoundTrip(k, id);
  }
}

=== FILE: character_detail.dfy ===
/** The character detail page: the character is fetched by id, then its
    homeworld (when it has one), then its first five films, then its first
    three starships. */
module CharacterDetail {
  import opened Wrappers
  import opened Entities
  import Api
  import Seqs
  import Detail

  const FilmLimit: nat := 5
  const StarshipLimit: nat := 3

  datatype State = State(
    character: Option<Person>,
    homeworld: Option<Planet>,
    films: seq<Film>,
    starships: seq<Starship>,
    loading: bool,
    error: Option<string>)

  function Initial(): (s: State)
    ensures s.loading && s.character.None? && s.homeworld.None? && s.error.None?
  {
    State(None, None, [], [], true, None)
  }

  /** The homeworld request: the homeworld URL when it is non-empty (truthy). */
  function HomeworldUrls(c: Person): (r: seq<string>)
    ensures r == [] <==> c.homeworld == ""
    ensures r != [] ==> r == [c.homeworld]
  {
    if c.homeworld != "" then [c.homeworld] else []
  }

  /** The first five film URLs, in order. */
  function FilmUrls(c: Person): (r: seq<string>)
    ensures |r| == if |c.films| < FilmLimit then |c.films| else FilmLimit
    ensures r == c.films[..|r|]
  {
    Seqs.Take(c.films, FilmLimit)
  }

  /** The first three starship URLs, in order. */
  function StarshipUrls(c: Person): (r: seq<string>)
    ensures |r| == if |c.starships| < StarshipLimit then |c.starships| else StarshipLimit
    ensures r == c.starships[..|r|]
  {
    Seqs.Take(c.starships, StarshipLimit)
  }

  function PersonUrl(id: string): string {
    Api.BaseUrl + Api.ByIdPath(Api.People, id)
  }

  datatype Step = Step(state: State, requests: seq<string>)

  /** The homeworld stage: nothing to wait for without a homeworld. */
  function FetchHomeworld(c: Person, planets: Api.Network<Planet>): (r: Result<Option<Planet>>)
    ensures c.homeworld == "" ==> r == Ok(None)
    ensures c.homeworld != "" ==>
      (r.Ok? <==> Api.FetchByUrl(c.homeworld, planets).Ok?) &&
      (r.Ok? ==> r.value == Some(Api.FetchByUrl(c.homeworld, planets).value)) &&
      (r.Err? ==> r.message == Api.FetchByUrl(c.homeworld, planets).message)
  {
    if c.homeworld == "" then Ok(None)
    else
      var h :- Api.FetchByUrl(c.homeworld, planets);
      Ok(Some(h))
  }

  /** The mount effect: character, homeworld, films, starships, in that order;
      a failure at one stage skips every later one. */
  function Mount(id: string, people: Api.Network<Person>, planets: Api.Network<Planet>,
                 films: Api.Network<Film>, ships: Api.Network<Starship>): (r: Step)
    ensures !r.state.loading
    ensures var e := Api.FetchByUrl(PersonUrl(id), people);
      (e.Err? ==> r.requests == [PersonUrl(id)] && r.state.error == Some(e.message) && r.state.character.None?) &&
      (e.Ok? ==> r.state.character == Some(e.value))
    ensures var e := Api.FetchByUrl(PersonUrl(id), people);
      e.Ok? ==>
        var c := e.value;
        var h := FetchHomeworld(c, planets);
        (h.Err? ==> r.requests == [PersonUrl(id)] + HomeworldUrls(c) && r.state.error == Some(h.message)) &&
        (h.Ok? ==>
          r.state.homeworld == h.value &&
          var fs := Detail.FetchAll(FilmUrls(c), films);
          (fs.Err? ==> r.requests == [PersonUrl(id)] + HomeworldUrls(c) + FilmUrls(c) && r.state.error == Some(fs.message)) &&
          (fs.Ok? ==> r.requests == [PersonUrl(id)] + HomeworldUrls(c) + FilmUrls(c) + StarshipUrls(c)
                      && r.state.films == fs.value &&
                      var ss := Detail.FetchAll(StarshipUrls(c), ships);
                      (ss.Err? ==> r.state.error == Some(ss.message)) &&
                      (ss.Ok? ==> r.state.error.None? && r.state.starships == ss.value)))
    ensures r.state.error.None? ==>
      r.state.character.Some? &&
      Detail.FetchAll(StarshipUrls(r.state.character.value), ships) == Ok(r.state.starships)
  {
    var url := PersonUrl(id);
    match Api.GetById(Api.People, id, people)
    case Err(m) => Step(State(None, None, [], [], false, Some(m)), [url])
    case Ok(c) =>
      var hu := HomeworldUrls(c);
      match FetchHomeworld(c, planets)
      case Err(m) => Step(State(Some(c), None, [], [], false, Some(m)), [url] + hu)
      case Ok(h) =>
        var fu := FilmUrls(c);
        match Detail.FetchAll(fu, films)
        case Err(m) => Step(State(Some(c), h, [], [], false, Some(m)), [url] + hu + fu)
        case Ok(fs) =>
          var su := StarshipUrls(c);
          match Detail.FetchAll(su, ships)
          case Err(m) => Step(State(Some(c), h, fs, [], false, Some(m)), [url] + hu + fu + su)
          case Ok(ss) => Step(State(Some(c), h, fs, ss, false, None), [url] + hu + fu + su)
  }

  /** What the loaded page shows. */
  datatype Content = Content(
    height: string,
    mass: string,
    homeworldLink: Option<string>,
    filmLinks: seq<string>,
    starshipLinks: seq<string>)

  /** The page body: height and mass followed by their units (unlike the
      list card, `"unknown"` is not replaced), and the homeworld link only
      when a homeworld was loaded. */
  function ContentOf(c: Person, homeworld: Option<Planet>, films: seq<Film>,
                     starships: seq<Starship>): (r: Content)
    ensures r.homeworldLink.Some? <==> homeworld.Some?
    ensures homeworld.Some? ==> r.homeworldLink.value == Api.DetailRoute("/planets", homeworld.value.url)
    ensures |r.height| == |c.height| + 3 && r.height[..|c.height|] == c.height && r.height[|c.height|..] == " cm"
    ensures |r.mass| == |c.mass| + 3 && r.mass[..|c.mass|] == c.mass && r.mass[|c.mass|..] == " kg"
    ensures r.height != "Unknown" && r.mass != "Unknown"
  {
    Content(
      c.height + " cm",
      c.mass + " kg",
      match homeworld { case Some(h) => Some(Api.DetailRoute("/planets", h.url)) case None => None },
      Detail.Links("/films", films, (x: Film) => x.url),
      Detail.Links("/starships", starships, (x: Starship) => x.url))
  }

  function View(s: State): Detail.View<Content> {
    Detail.Render(s.loading, s.error, s.character,
                  (c: Person) => ContentOf(c, s.homeworld, s.films, s.starships))
  }

  /** On a loaded page the homeworld link is there exactly when the character
      has a homeworld URL; the page never ends on "Character not found". */
  lemma HomeworldLinkAfterMount(id: string, people: Api.Network<Person>, planets: Api.Network<Planet>,
                                films: Api.Network<Film>, ships: Api.Network<Starship>)
    ensures var v := View(Mount(id, people, planets, films, ships).state);
      v.Failed? || v.Content?
    ensures var s := Mount(id, people, planets, films, ships).state;
      View(s).Content? ==> (View(s).content.homeworldLink.Some? <==> s.character.value.homeworld != "")
  {
  }
}

=== FILE: characters_page.dfy ===
/** The character list page: the shared list-page state without a
    client-side filter, and the card's height and mass display. */
module CharactersPage {
  import Format
  import ListPages
  import Api
  import Numbers
  import opened Entities

  /** What a character's card shows. */
  datatype Card = Card(link: string, name: string, height: string, mass: string)

  /** Height in centimetres and mass in kilograms, `"Unknown"` for `"unknown"`. */
  function CardOf(c: Person): (r: Card)
    ensures c.height == "unknown" <==> r.height == "Unknown"
    ensures c.mass == "unknown" <==> r.mass == "Unknown"
    ensures c.height != "unknown" ==> r.height == c.height + "cm"
    ensures c.mass != "unknown" ==> r.mass == c.mass + "kg"
  {
    Format.TextOrUnknownFaithful(c.height, c.height, "cm");
    Format.TextOrUnknownFaithful(c.mass, c.mass, "kg");
    Card(Api.DetailRoute("/characters", c.url), c.name,
         Format.TextOrUnknown(c.height, "cm"), Format.TextOrUnknown(c.mass, "kg"))
  }

  /** Two characters whose cards show the same height have the same height. */
  lemma HeightShownFaithfully(c1: Person, c2: Person)
    requires CardOf(c1).height == CardOf(c2).height
    ensures c1.height == c2.height
  {
    Format.TextOrUnknownFaithful(c1.height, c2.height, "cm");
  }

  /** A character with a canonical SWAPI URL links to its own detail route. */
  lemma CardOfCanonicalCharacter(c: Person, id: string)
    requires |id| > 0 && Numbers.AllDigits(id)
    requires c.url == Api.BaseUrl + Api.ByIdPath(Api.People, id)
    ensures CardOf(c).link == "/characters/" + id
  {
    Api.DetailRouteOfCanonicalUrl("/characters", Api.People, id);
  }

  /** The page's content area: the shared list view over all loaded
      characters; an empty list shows the "No characters found" message. */
  function View(s: ListPages.ListState<Person>): (v: ListPages.View<Person>)
    ensures v.NothingFound? <==> !s.loading && s.error.None? && s.items == []
    ensures v.Cards? ==> v.cards == s.items
  {
    ListPages.Render(s, s.items)
  }
}

=== FILE: detail.dfy ===
/** What the four detail pages share: fetching a list of related resources
    at once (`Promise.all` over `fetchByUrl`), the order in which a detail
    page decides what to show, and the links to related resources. */
module Detail {
  import opened Wrappers
  import Api

  /** `Promise.all(urls.map(fetchByUrl))`: every URL is requested; the result
      is all bodies in URL order when every request succeeds, and otherwise
      the error of one of the failed requests. Which failure is reported
      depends on timing; this model reports the first in URL order. */
  function FetchAll<B>(urls: seq<string>, net: Api.Network<B>): (r: Result<seq<B>>)
    ensures r.Ok? <==> forall i :: 0 <= i < |urls| ==> Api.FetchByUrl(urls[i], net).Ok?
    ensures r.Ok? ==>
      |r.value| == |urls| &&
      forall i :: 0 <= i < |urls| ==> r.value[i] == Api.FetchByUrl(urls[i], net).value
    ensures r.Err? ==> exists i :: 0 <= i < |urls| && Api.FetchByUrl(urls[i], net) == Err(r.message)
    decreases |urls|
  {
    if |urls| == 0 then Ok([])
    else
      var first :- Api.FetchByUrl(urls[0], net);
      var rest :- FetchAll(urls[1..], net);
      Ok([first] + rest)
  }

  /** Waiting for no requests succeeds at once with nothing. */
  lemma FetchAllOfNothing<B>(net: Api.Network<B>)
    ensures FetchAll([], net) == Ok([])
  {
  }

  /** Fetching two lists at once is fetching them one after the other. */
  lemma FetchAllAppend<B>(us: seq<string>, vs: seq<string>, net: Api.Network<B>)
    ensures FetchAll(us + vs, net).Ok? <==> FetchAll(us, net).Ok? && FetchAll(vs, net).Ok?
    ensures FetchAll(us + vs, net).Ok? ==>
      FetchAll(us + vs, net).value == FetchAll(us, net).value + FetchAll(vs, net).value
  {
    var ws := us + vs;
    assert forall i :: 0 <= i < |us| ==> ws[i] == us[i];
    assert forall j :: 0 <= j < |vs| ==> ws[|us| + j] == vs[j];
    if FetchAll(ws, net).Ok? {
      var a, b, c := FetchAll(ws, net).value, FetchAll(us, net).value, FetchAll(vs, net).value;
      assert forall i :: 0 <= i < |us| ==> a[i] == b[i];
      assert forall j :: 0 <= j < |vs| ==> a[|us| + j] == c[j];
      assert a == b + c;
    }
  }

  /** What a detail page shows. */
  datatype View<C> = Spinner | Failed(message: string) | NotFound | Content(content: C)

  /** The order of a detail page's early returns: loading, then error, then
      "not found" when there is no entity, then the content built from it. */
  function Render<E, C>(loading: bool, error: Option<string>, entity: Option<E>, build: E -> C): (v: View<C>)
    ensures v.Spinner? <==> loading
    ensures v.Failed? <==> !loading && error.Some?
    ensures v.Failed? ==> v.message == error.value
    ensures v.NotFound? <==> !loading && error.None? && entity.None?
    ensures v.Content? ==> entity.Some? && v.content == build(entity.value)
  {
    if loading then Spinner
    else if error.Some? then Failed(error.value)
    else if entity.None? then NotFound
    else Content(build(entity.value))
  }

  /** The in-app links of a list of related resources. */
  function Links<B>(route: string, items: seq<B>, url: B -> string): (r: seq<string>)
    ensures |r| == |items|
    ensures forall i :: 0 <= i < |items| ==> r[i] == Api.DetailRoute(route, url(items[i]))
  {
    seq(|items|, i requires 0 <= i < |items| => Api.DetailRoute(route, url(items[i])))
  }
}

=== FILE: entities.dfy ===
/** The SWAPI resources the pages read, reduced to the fields the client's
    logic uses. Links to related resources are URL strings. A field the
    source reads with optional chaining (`?.`) may be absent and is an `Option`. */
module Entities {
  import opened Wrappers

  datatype Planet = Planet(
    name: string,
    climate: Option<string>,
    terrain: Option<string>,
    population: string,
    diameter: string,
    surfaceWater: string,
    rotationPeriod: string,
    orbitalPeriod: string,
    residents: seq<string>,
    films: seq<string>,
    url: string)

  datatype Person = Person(
    name: string,
    height: string,
    mass: string,
    homeworld: string,
    films: seq<string>,
    starships: seq<string>,
    url: string)

  datatype Film = Film(
    title: string,
    episodeId: int,
    openingCrawl: string,
    characters: seq<string>,
    planets: seq<string>,
    starships: seq<string>,
    vehicles: seq<string>,
    species: seq<string>,
    url: string)

  datatype Starship = Starship(
    name: string,
    starshipClass: Option<string>,
    manufacturer: string,
    costInCredits: string,
    cargoCapacity: string,
    pilots: seq<string>,
    films: seq<string>,
    url: string)
}

=== FILE: film_detail.dfy ===
/** The film detail page: the film is fetched by id, then its first six
    characters, then its first four planets. */
module FilmDetail {
  import opened Wrappers
  import opened Entities
  import Api
  import Seqs
  import Detail
  import FilmsPage

  const CharacterLimit: nat := 6
  const PlanetLimit: nat := 4

  datatype State = State(
    film: Option<Film>,
    characters: seq<Person>,
    planets: seq<Planet>,
    loading: bool,
    error: Option<string>)

  function Initial(): (s: State)
    ensures s.loading && s.film.None? && s.error.None?
  {
    State(None, [], [], true, None)
  }

  /** The first six character URLs, in order. */
  function CharacterUrls(f: Film): (r: seq<string>)
    ensures |r| == if |f.characters| < CharacterLimit then |f.characters| else CharacterLimit
    ensures r == f.characters[..|r|]
  {
    Seqs.Take(f.characters, CharacterLimit)
  }

  /** The first four planet URLs, in order. */
  function PlanetUrls(f: Film): (r: seq<string>)
    ensures |r| == if |f.planets| < PlanetLimit then |f.planets| else PlanetLimit
    ensures r == f.planets[..|r|]
  {
    Seqs.Take(f.planets, PlanetLimit)
  }

  function FilmUrl(id: string): string {
    Api.BaseUrl + Api.ByIdPath(Api.Films, id)
  }

  datatype Step = Step(state: State, requests: seq<string>)

  /** The mount effect: the film, then its characters, then its planets. The
      planets are requested only after every character request succeeded. */
  function Mount(id: string, filmsNet: Api.Network<Film>, people: Api.Network<Person>,
                 planets: Api.Network<Planet>): (r: Step)
    ensures !r.state.loading
    ensures var e := Api.FetchByUrl(FilmUrl(id), filmsNet);
      (e.Err? ==> r.requests == [FilmUrl(id)] && r.state.error == Some(e.message) && r.state.film.None?) &&
      (e.Ok? ==> r.state.film == Some(e.value))
    ensures var e := Api.FetchByUrl(FilmUrl(id), filmsNet);
      e.Ok? ==>
        var cs := Detail.FetchAll(CharacterUrls(e.value), people);
        (cs.Err? ==> r.requests == [FilmUrl(id)] + CharacterUrls(e.value) && r.state.error == Some(cs.message)) &&
        (cs.Ok? ==>
          r.requests == [FilmUrl(id)] + CharacterUrls(e.value) + PlanetUrls(e.value) && r.state.characters == cs.value &&
          var ps := Detail.FetchAll(PlanetUrls(e.value), planets);
          (ps.Err? ==> r.state.error == Some(ps.message)) &&
          (ps.Ok? ==> r.state.error.None? && r.state.planets == ps.value))
    ensures r.state.error.None? ==>
      r.state.film.Some? &&
      Detail.FetchAll(PlanetUrls(r.state.film.value), planets) == Ok(r.state.planets)
  {
    var url := FilmUrl(id);
    match Api.GetById(Api.Films, id, filmsNet)
    case Err(m) => Step(State(None, [], [], false, Some(m)), [url])
    case Ok(f) =>
      var cu := CharacterUrls(f);
      match Detail.FetchAll(cu, people)
      case Err(m) => Step(State(Some(f), [], [], false, Some(m)), [url] + cu)
      case Ok(cs) =>
        var pu := PlanetUrls(f);
        match Detail.FetchAll(pu, planets)
        case Err(m) => Step(State(Some(f), cs, [], false, Some(m)), [url] + cu + pu)
        case Ok(ps) => Step(State(Some(f), cs, ps, false, None), [url] + cu + pu)
  }

  /** What the loaded page shows. */
  datatype Content = Content(
    episode: FilmsPage.Episode,
    crawl: string,
    characterCount: nat,
    planetCount: nat,
    starshipCount: nat,
    vehicleCount: nat,
    speciesCount: nat,
    characterLinks: seq<string>,
    planetLinks: seq<string>)

  /** The page body: the episode uses the same numeral table as the list
      page, and the counts are those of the film's URL lists. */
  function ContentOf(f: Film, characters: seq<Person>, planets: seq<Planet>): (c: Content)
    ensures c.episode.Numeral? <==> 1 <= f.episodeId <= 10
    ensures c.characterCount == |f.characters| && c.planetCount == |f.planets|
    ensures |c.characterLinks| == |characters| && |c.planetLinks| == |planets|
  {
    Content(
      FilmsPage.ToRoman(f.episodeId),
      f.openingCrawl,
      |f.characters|, |f.planets|, |f.starships|, |f.vehicles|, |f.species|,
      Detail.Links("/characters", characters, (x: Person) => x.url),
      Detail.Links("/planets", planets, (x: Planet) => x.url))
  }

  function View(s: State): Detail.View<Content> {
    Detail.Render(s.loading, s.error, s.film, (f: Film) => ContentOf(f, s.characters, s.planets))
  }

  /** A failed character request means the planets are never requested and
      the page shows that failure. */
  lemma CharacterFailureSkipsPlanets(id: string, filmsNet: Api.Network<Film>, people: Api.Network<Person>,
                                     planets: Api.Network<Planet>, i: nat)
    requires Api.FetchByUrl(FilmUrl(id), filmsNet).Ok?
    requires var f := Api.FetchByUrl(FilmUrl(id), filmsNet).value;
      i < |CharacterUrls(f)| && Api.FetchByUrl(CharacterUrls(f)[i], people).Err?
    ensures var f := Api.FetchByUrl(FilmUrl(id), filmsNet).value;
      var r := Mount(id, filmsNet, people, planets);
      r.requests == [FilmUrl(id)] + CharacterUrls(f) && View(r.state).Failed?
  {
  }

  /** Once the mount effect has finished, the page shows either an error or
      the film, never "Film not found"; on a loaded page at most six
      characters and four planets are linked. */
  lemma MountEndsInErrorOrContent(id: string, filmsNet: Api.Network<Film>, people: Api.Network<Person>,
                                  planets: Api.Network<Planet>)
    ensures var v := View(Mount(id, filmsNet, people, planets).state);
      v.Failed? || v.Content?
    ensures var v := View(Mount(id, filmsNet, people, planets).state);
      v.Content? ==> |v.content.characterLinks| <= CharacterLimit && |v.content.planetLinks| <= PlanetLimit
  {
  }
}

=== FILE: films_page.dfy ===
/** The film list page: the unpaged film list with server-side search, the
    episode numeral, and the opening-crawl preview. The episode numeral is
    shared with the film detail page, which uses the same table. */
module FilmsPage {
  import opened Wrappers
  import opened Entities
  import Api
  import Seqs
  import ListPages

  /** What `toRoman` returns: a numeral from the table, or the number itself. */
  datatype Episode = Numeral(text: string) | Number(n: int)

  const RomanNumerals: seq<string> := ["I", "II", "III", "IV", "V", "VI", "VII", "VIII", "IX", "X"]

  /** `roman[num - 1] || num`: the table entry for 1..10; outside the table
      the lookup is `undefined` and the number itself is shown. */
  function ToRoman(n: int): (r: Episode)
    ensures 1 <= n <= |RomanNumerals| <==> r.Numeral?
    ensures r.Number? ==> r.n == n
  {
    if 1 <= n <= |RomanNumerals| then Numeral(RomanNumerals[n - 1]) else Number(n)
  }

  /** The value of a Roman numeral letter. */
  function LetterValue(c: char): int {
    match c
    case 'I' => 1
    case 'V' => 5
    case 'X' => 10
    case 'L' => 50
    case 'C' => 100
    case 'D' => 500
    case 'M' => 1000
    case _ => 0
  }

  /** The value of a Roman numeral by the usual rule: letters add up, except
      that a letter followed by a larger one is subtracted. */
  function NumeralValue(s: string): int
    decreases |s|
  {
    if |s| == 0 then 0
    else if |s| >= 2 && LetterValue(s[0]) < LetterValue(s[1]) then NumeralValue(s[1..]) - LetterValue(s[0])
    else LetterValue(s[0]) + NumeralValue(s[1..])
  }

  /** Every numeral in the table denotes its episode number, so distinct
      episodes get distinct numerals. */
  lemma ToRomanDenotesEpisode(n: int)
    requires 1 <= n <= 10
    ensures ToRoman(n).Numeral? && NumeralValue(ToRoman(n).text) == n
  {
    assert NumeralValue("I") == 1;
    assert NumeralValue("II") == 2;
    assert NumeralValue("III") == 3;
    assert NumeralValue("IV") == 4;
    assert NumeralValue("V") == 5;
    assert NumeralValue("VI") == 6;
    assert NumeralValue("VII") == 7;
    assert NumeralValue("VIII") == 8;
    assert NumeralValue("IX") == 9;
    assert NumeralValue("X") == 10;
  }

  /** Two episodes show the same thing only when they are the same episode. */
  lemma ToRomanInjective(m: int, n: int)
    requires ToRoman(m) == ToRoman(n)
    ensures m == n
  {
    if 1 <= m <= 10 {
      ToRomanDenotesEpisode(m);
      ToRomanDenotesEpisode(n);
    }
  }

  predicate IsLineBreak(c: char) {
    c == '\r' || c == '\n'
  }

  /** The three line endings the crawl text may use. */
  predicate IsLineEnding(e: string) {
    e == "\r\n" || e == "\r" || e == "\n"
  }

  predicate HasNoLineBreak(s: string) {
    forall i :: 0 <= i < |s| ==> !IsLineBreak(s[i])
  }

  /** How many characters the next match of `/\r\n|\r|\n/` or the next plain
      character takes up at the start of `s`: two for a CR LF pair, one otherwise. */
  function Consumed(s: string): (n: nat)
    requires |s| > 0
    ensures 1 <= n <= |s|
  {
    if |s| >= 2 && s[0] == '\r' && s[1] == '\n' then 2 else 1
  }

  /** The character the start of `s` turns into: a space for a line break. */
  function Head(s: string): (c: char)
    requires |s| > 0
    ensures !IsLineBreak(c)
  {
    if IsLineBreak(s[0]) then ' ' else s[0]
  }

  /** `crawl.replace(/\r\n|\r|\n/g, " ")`: scanning left to right, a CR LF pair
      becomes one space and any other CR or LF becomes one space. */
  function Normalise(s: string): (r: string)
    ensures HasNoLineBreak(r)
    ensures |r| <= |s|
    decreases |s|
  {
    if |s| == 0 then "" else [Head(s)] + Normalise(s[Consumed(s)..])
  }

  /** Text without line breaks is left as it is. */
  lemma {:induction false} NormaliseKeepsPlainText(s: string)
    requires HasNoLineBreak(s)
    ensures Normalise(s) == s
    decreases |s|
  {
    if |s| > 0 {
      NormaliseKeepsPlainText(s[1..]);
      assert s == [s[0]] + s[1..];
    }
  }

  /** Normalising twice is normalising once. */
  lemma NormaliseIdempotent(s: string)
    ensures Normalise(Normalise(s)) == Normalise(s)
  {
    NormaliseKeepsPlainText(Normalise(s));
  }

  /** Text after `a` does not change how the start of `a` is read, unless it
      completes a CR LF pair. */
  lemma StepOfConcat(a: string, b: string)
    requires |a| > 0
    requires a[|a| - 1] != '\r' || b == [] || b[0] != '\n'
    ensures Head(a + b) == Head(a) && Consumed(a + b) == Consumed(a)
    ensures (a + b)[Consumed(a)..] == a[Consumed(a)..] + b
  {
    assert (a + b)[0] == a[0];
    if |a| >= 2 {
      assert (a + b)[1] == a[1];
    }
  }

  /** Normalising works piece by piece, provided the cut does not split a CR
      LF pair. */
  lemma {:induction false} NormaliseConcat(a: string, b: string)
    requires a == [] || a[|a| - 1] != '\r' || b == [] || b[0] != '\n'
    ensures Normalise(a + b) == Normalise(a) + Normalise(b)
    decreases |a|
  {
    if |a| == 0 {
      assert a + b == b;
    } else {
      StepOfConcat(a, b);
      var rest := a[Consumed(a)..];
      assert rest == [] || rest[|rest| - 1] == a[|a| - 1];
      NormaliseConcat(rest, b);
    }
  }

  /** A line ending in front of text without a leading LF is one space. */
  lemma NormaliseEnding(ending: string, b: string)
    requires IsLineEnding(ending)
    requires b == [] || b[0] != '\n'
    ensures Normalise(ending + b) == " " + Normalise(b)
  {
    var e := ending + b;
    assert e[0] == ending[0];
    if ending == "\r\n" {
      assert e[1] == '\n';
    } else if |b| > 0 {
      assert e[1] == b[0];
    }
    assert e[|ending|..] == b;
  }

  /** Plain text in front of a piece that normalises to `" " + b`. */
  lemma NormaliseAfterPlain(a: string, e: string, b: string)
    requires HasNoLineBreak(a) && Normalise(e) == " " + b
    ensures Normalise(a + e) == a + " " + b
  {
    assert a == [] || !IsLineBreak(a[|a| - 1]);
    NormaliseKeepsPlainText(a);
    NormaliseConcat(a, e);
  }

  /** Each of the three line endings becomes exactly one space. */
  lemma LineEndingsBecomeSpaces(a: string, b: string, ending: string)
    requires IsLineEnding(ending)
    requires HasNoLineBreak(a) && HasNoLineBreak(b)
    ensures Normalise(a + (ending + b)) == a + " " + b
  {
    NormaliseEnding(ending, b);
    NormaliseKeepsPlainText(b);
    NormaliseAfterPlain(a, ending + b, b);
  }

  const PreviewLength: nat := 150

  /** The crawl preview: the first 150 characters of the normalised crawl. */
  function Preview(crawl: string): (r: string)
    ensures HasNoLineBreak(r)
    ensures |r| == if |Normalise(crawl)| < PreviewLength then |Normalise(crawl)| else PreviewLength
    ensures r == Normalise(crawl)[..|r|]
  {
    Seqs.Take(Normalise(crawl), PreviewLength)
  }

  /** What a film's card shows. */
  datatype Card = Card(link: string, episode: Episode, title: string,
                       characters: nat, planets: nat, preview: string)

  /** The text the card always prints after the crawl preview. */
  const Ellipsis: string := "..."

  /** The card links into the film routes, shows a numeral exactly for the
      episodes of the table, and shows on one line at most 150 characters of
      the normalised crawl followed by "...". */
  function CardOf(f: Film): (r: Card)
    ensures |r.link| > |"/films/"| && r.link[..|"/films/"|] == "/films/"
    ensures r.episode.Numeral? <==> 1 <= f.episodeId <= |RomanNumerals|
    ensures HasNoLineBreak(r.preview) && |r.preview| <= PreviewLength + |Ellipsis|
    ensures var n := |r.preview| - |Ellipsis|;
      0 <= n <= |Normalise(f.openingCrawl)| && r.preview[n..] == Ellipsis &&
      r.preview[..n] == Normalise(f.openingCrawl)[..n]
  {
    var p := Preview(f.openingCrawl);
    assert (p + Ellipsis)[..|p|] == p;
    Card(Api.DetailRoute("/films", f.url), ToRoman(f.episodeId), f.title,
         |f.characters|, |f.planets|, p + Ellipsis)
  }

  datatype FilmsState = FilmsState(
    films: seq<Film>,
    loading: bool,
    error: Option<string>,
    searchQuery: string)

  function Initial(): (s: FilmsState)
    ensures s.loading && s.films == [] && s.searchQuery == ""
  {
    FilmsState([], true, None, "")
  }

  /** The request `fetchFilms(query)` sends: the search endpoint for a
      non-empty query, the full film list otherwise. */
  function FilmsUrl(query: string, encode: string -> string): string {
    Api.BaseUrl + (if query != "" then Api.SearchPath(Api.Films, query, encode) else Api.AllFilmsPath)
  }

  /** `fetchFilms(query)`: both helpers return the `results` array, which
      replaces the list; a failure records its message and keeps the list. */
  function Fetch(s: FilmsState, query: string, encode: string -> string,
                 net: Api.Network<Api.Listing<Film>>): (t: FilmsState)
    ensures !t.loading && t.searchQuery == s.searchQuery
    ensures t.error.None? <==> Api.FetchByUrl(FilmsUrl(query, encode), net).Ok?
    ensures t.error.None? ==> t.films == Api.FetchByUrl(FilmsUrl(query, encode), net).value.results
    ensures t.error.Some? ==>
      t.films == s.films && t.error.value == Api.FetchByUrl(FilmsUrl(query, encode), net).message
  {
    var r := if query != "" then Api.Search(Api.Films, query, encode, net) else Api.GetAllFilms(net);
    match r
    case Ok(fs) => FilmsState(fs, false, None, s.searchQuery)
    case Err(m) => s.(loading := false, error := Some(m))
  }

  /** A transition's outcome: the settled state and the URLs requested. */
  datatype Step = Step(state: FilmsState, requests: seq<string>)

  /** The mount effect: the full film list. */
  function Mount(encode: string -> string, net: Api.Network<Api.Listing<Film>>): (r: Step)
    ensures r.requests == [Api.BaseUrl + Api.AllFilmsPath]
  {
    Step(Fetch(Initial(), "", encode, net), [FilmsUrl("", encode)])
  }

  /** `handleSearch(query)`: store the query and fetch for it. */
  function HandleSearch(s: FilmsState, query: string, encode: string -> string,
                        net: Api.Network<Api.Listing<Film>>): (r: Step)
    ensures r.state.searchQuery == query
    ensures r.requests == [FilmsUrl(query, encode)]
  {
    Step(Fetch(s.(searchQuery := query), query, encode, net), [FilmsUrl(query, encode)])
  }

  /** The error message's retry button: the stored query again. */
  function Retry(s: FilmsState, encode: string -> string, net: Api.Network<Api.Listing<Film>>): (r: Step)
    ensures r.requests == [FilmsUrl(s.searchQuery, encode)]
    ensures r.state.searchQuery == s.searchQuery
  {
    Step(Fetch(s, s.searchQuery, encode, net), [FilmsUrl(s.searchQuery, encode)])
  }

  /** Clearing the search (an empty query) requests the full list again and
      ends with the list the page mounted with. */
  lemma EmptySearchRestoresFullList(s: FilmsState, encode: string -> string,
                                    net: Api.Network<Api.Listing<Film>>)
    ensures HandleSearch(s, "", encode, net).requests == Mount(encode, net).requests
    ensures Mount(encode, net).state.error.None? ==>
      HandleSearch(s, "", encode, net).state == Mount(encode, net).state
  {
  }

  /** The content area: spinner, else error, else the empty message, else the
      cards; the film list has no pagination. */
  function Render(s: FilmsState): (v: ListPages.View<Card>)
    ensures v.Spinner? <==> s.loading
    ensures v.Failed? <==> !s.loading && s.error.Some?
    ensures v.NothingFound? <==> !s.loading && s.error.None? && s.films == []
    ensures v.Cards? ==>
      v.pager.None? && |v.cards| == |s.films| &&
      forall i :: 0 <= i < |s.films| ==> v.cards[i] == CardOf(s.films[i])
  {
    if s.loading then ListPages.Spinner
    else if s.error.Some? then ListPages.Failed(s.error.value)
    else if |s.films| == 0 then ListPages.NothingFound
    else ListPages.Cards(seq(|s.films|, i requires 0 <= i < |s.films| => CardOf(s.films[i])), None)
  }
}

=== FILE: format.dfy ===
/** How the pages turn SWAPI's string-valued fields into display text: the
    `"unknown"` convention, unit suffixes, and the K/M/B abbreviation of large
    numbers. The digits that `toLocaleString` and `toFixed(1)` print are left
    abstract; what is modelled is which branch, tier and unit is chosen. */
module Format {
  import opened Wrappers
  import Numbers

  datatype Tier = Thousand | Million | Billion

  /** The divisor of each tier. */
  function Scale(t: Tier): nat {
    match t
    case Thousand => 1_000
    case Million => 1_000_000
    case Billion => 1_000_000_000
  }

  function Suffix(t: Tier): string {
    match t
    case Thousand => "K"
    case Million => "M"
    case Billion => "B"
  }

  /** A displayed value. */
  datatype Shown =
    | Literal(text: string)         // a string shown as it is
    | Whole(n: int)                 // `n.toLocaleString()`
    | Scaled(n: int, tier: Tier)    // `(n / Scale(tier)).toFixed(1)` followed by `Suffix(tier)`
    | NotANumber                    // `NaN.toLocaleString()`, the text "NaN"

  /** `formatPopulation` of the planet list and `formatCredits` of the starship
      list (the two are the same code): `"unknown"` shows as "Unknown", text
      without a leading integer shows unchanged, and a number is abbreviated by
      the largest of 1e9, 1e6, 1e3 it reaches. */
  function Compact(v: string): (r: Shown)
    ensures v == "unknown" ==> r == Literal("Unknown")
    ensures v != "unknown" && Numbers.ParseInt(v).None? ==> r == Literal(v)
    ensures v != "unknown" && Numbers.ParseInt(v).Some? ==>
      (r.Whole? || r.Scaled?) && r.n == Numbers.ParseInt(v).value
    ensures r.Scaled? ==> Scale(r.tier) <= r.n && (r.tier == Billion || r.n < 1000 * Scale(r.tier))
    ensures r.Whole? ==> r.n < 1000
  {
    if v == "unknown" then Literal("Unknown")
    else match Numbers.ParseInt(v)
      case None => Literal(v)
      case Some(n) =>
        if n >= 1_000_000_000 then Scaled(n, Billion)
        else if n >= 1_000_000 then Scaled(n, Million)
        else if n >= 1_000 then Scaled(n, Thousand)
        else Whole(n)
  }

  /** The tier is the largest one whose scale the number reaches: a number is
      abbreviated with tier `t` exactly when it lies in `t`'s band. */
  lemma CompactTierBands(v: string, t: Tier)
    requires v != "unknown" && Numbers.ParseInt(v).Some?
    ensures var n := Numbers.ParseInt(v).value;
      Compact(v) == Scaled(n, t) <==> Scale(t) <= n && (t == Billion || n < 1000 * Scale(t))
  {
  }

  /** `formatPopulation` of the planet page and `formatCredits` of the
      starship page: like `Compact` but never abbreviated. */
  function Plain(v: string): (r: Shown)
    ensures !r.Scaled? && !r.NotANumber?
    ensures r.Whole? <==> v != "unknown" && Numbers.ParseInt(v).Some?
    ensures r.Whole? ==> r.n == Numbers.ParseInt(v).value
  {
    if v == "unknown" then Literal("Unknown")
    else match Numbers.ParseInt(v)
      case None => Literal(v)
      case Some(n) => Whole(n)
  }

  /** The list and detail formatters show the same thing exactly when there is
      nothing to abbreviate: an unknown or non-numeric value, or one below 1000. */
  lemma CompactAgreesWithPlain(v: string)
    ensures Compact(v) == Plain(v) <==>
      v == "unknown" || Numbers.ParseInt(v).None? || Numbers.ParseInt(v).value < 1000
  {
  }

  /** A value with the unit printed after it (`""` when none). */
  datatype Label = Label(value: Shown, unit: string)

  /** `v !== "unknown" ? `${parseInt(v).toLocaleString()}<unit>` : "Unknown"`,
      used for diameters and cargo capacity; non-numeric text prints "NaN". */
  function MeasureOrUnknown(v: string, unit: string): (r: Label)
    ensures v == "unknown" <==> r == Label(Literal("Unknown"), "")
    ensures v != "unknown" ==> r.unit == unit
    ensures v != "unknown" && Numbers.ParseInt(v).Some? ==> r.value == Whole(Numbers.ParseInt(v).value)
    ensures v != "unknown" && Numbers.ParseInt(v).None? ==> r.value == NotANumber
  {
    if v == "unknown" then Label(Literal("Unknown"), "")
    else match Numbers.ParseInt(v)
      case Some(n) => Label(Whole(n), unit)
      case None => Label(NotANumber, unit)
  }

  /** `v !== "unknown" ? `${v}<unit>` : "Unknown"`: the raw value followed by its
      unit; heights, masses, surface water and orbital figures use it. */
  function TextOrUnknown(v: string, unit: string): (r: string)
    ensures v == "unknown" ==> r == "Unknown"
    ensures v != "unknown" ==> |r| == |v| + |unit| && r[..|v|] == v && r[|v|..] == unit
  {
    if v == "unknown" then "Unknown" else v + unit
  }

  /** With any of the units the pages use (none ends in `n`), "Unknown" is
      shown exactly for `"unknown"`, and different values show differently. */
  lemma TextOrUnknownFaithful(v1: string, v2: string, unit: string)
    requires |unit| > 0 && unit[|unit| - 1] != 'n'
    ensures TextOrUnknown(v1, unit) == "Unknown" <==> v1 == "unknown"
    ensures TextOrUnknown(v1, unit) == TextOrUnknown(v2, unit) ==> v1 == v2
  {
    if v1 != "unknown" {
      var r := TextOrUnknown(v1, unit);
      assert r[|r| - 1] == unit[|unit| - 1];
    }
    if v2 != "unknown" {
      var r := TextOrUnknown(v2, unit);
      assert r[|r| - 1] == unit[|unit| - 1];
    }
  }
}

=== FILE: list_pages.dfy ===
/** The state machine shared by the paged list pages (planets, starships,
    characters): a page of results, a loading flag, an error, the search
    query and the page position. A fetch is modelled as the request it sends
    and the state once its answer has been applied; the user's actions are
    the transitions `Mount`, `HandleSearch`, `HandlePageChange` and `Retry`.

    The pages read `.results` and `.count` from whatever the fetch returned,
    but a search returns a bare array. `FetchAsWritten` keeps that behaviour
    (the page cannot render afterwards); `Fetch` is the evidently intended
    behaviour, which shows the array, and is the one the transitions use. */
module ListPages {
  import opened Wrappers
  import Api
  import Text
  import Seqs

  /** The page size SWAPI uses for its listings. */
  const PageSize: nat := 10

  datatype ListState<T> = ListState(
    items: seq<T>,
    loading: bool,
    error: Option<string>,
    searchQuery: string,
    currentPage: int,
    totalPages: int,
    totalCount: int)

  /** The state before the first fetch has answered. */
  function Initial<T>(): (s: ListState<T>)
    ensures s.loading && s.error.None? && s.items == []
    ensures s.searchQuery == "" && s.currentPage == 1
  {
    ListState([], true, None, "", 1, 1, 0)
  }

  /** `Math.ceil(count / 10)`: the least number of pages of ten that hold
      `count` results. */
  function TotalPages(count: int): (r: int)
    ensures (r - 1) * PageSize < count <= r * PageSize
  {
    (count + PageSize - 1) / PageSize
  }

  /** The ceiling is the only number of pages with that property, and it is
      zero exactly for an empty listing. */
  lemma TotalPagesUnique(count: int, p: int)
    requires (p - 1) * PageSize < count <= p * PageSize
    ensures p == TotalPages(count)
    ensures count == 0 ==> p == 0
    ensures count > 0 ==> p >= 1
  {
  }

  /** The URL a fetch for `page` and `query` requests: the search endpoint
      when the query is non-empty, the paged listing otherwise. */
  function ListUrl(k: Api.Kind, page: int, query: string, encode: string -> string): string {
    Api.BaseUrl + (if query != "" then Api.SearchPath(k, query, encode) else Api.PagePath(k, page))
  }

  /** What the awaited helper yields: a page object from `getAll*`, or the
      bare results array from `search*`. */
  datatype ListData<T> = PageData(listing: Api.Listing<T>) | ArrayData(elements: seq<T>)

  /** The helper a fetch awaits. */
  function Load<T>(k: Api.Kind, page: int, query: string, encode: string -> string,
                   net: Api.Network<Api.Listing<T>>): (r: Result<ListData<T>>)
    requires Api.HasPagedList(k)
    ensures r.Ok? <==> Api.FetchByUrl(ListUrl(k, page, query, encode), net).Ok?
    ensures r.Ok? && query == "" ==> r.value == PageData(Api.FetchByUrl(ListUrl(k, page, query, encode), net).value)
    ensures r.Ok? && query != "" ==> r.value == ArrayData(Api.FetchByUrl(ListUrl(k, page, query, encode), net).value.results)
    ensures r.Err? ==> r.message == Api.FetchByUrl(ListUrl(k, page, query, encode), net).message
  {
    if query != "" then
      var xs :- Api.Search(k, query, encode, net);
      Ok(ArrayData(xs))
    else
      var l :- Api.GetAll(k, page, net);
      Ok(PageData(l))
  }

  /** The start of a fetch: loading, with the previous error cleared. */
  function Begin<T>(s: ListState<T>): (r: ListState<T>)
    ensures r.loading && r.error.None?
    ensures r.items == s.items && r.searchQuery == s.searchQuery && r.currentPage == s.currentPage
  {
    s.(loading := true, error := None)
  }

  /** The end of a fetch (`try`/`catch`/`finally`): a failure records its
      message and keeps the previous results; a success replaces the results
      and the counts. A bare array is shown as it is, with its length as the
      count. */
  function Settle<T>(s: ListState<T>, r: Result<ListData<T>>): (t: ListState<T>)
    ensures !t.loading
    ensures t.searchQuery == s.searchQuery && t.currentPage == s.currentPage
    ensures r.Err? ==>
      t.error == Some(r.message) && t.items == s.items &&
      t.totalCount == s.totalCount && t.totalPages == s.totalPages
    ensures r.Ok? ==> t.error.None?
    ensures r.Ok? && r.value.PageData? ==>
      t.items == r.value.listing.results && t.totalCount == r.value.listing.count
    ensures r.Ok? && r.value.ArrayData? ==> t.items == r.value.elements && t.totalCount == |r.value.elements|
    ensures r.Ok? ==> (t.totalPages - 1) * PageSize < t.totalCount <= t.totalPages * PageSize
  {
    match r
    case Err(m) => s.(loading := false, error := Some(m))
    case Ok(PageData(l)) =>
      s.(loading := false, error := None, items := l.results,
         totalCount := l.count, totalPages := TotalPages(l.count))
    case Ok(ArrayData(xs)) =>
      s.(loading := false, error := None, items := xs,
         totalCount := |xs|, totalPages := TotalPages(|xs|))
  }

  /** The end of a fetch as the pages write it: `data.results` of a bare array
      is `undefined`, so the results become `undefined` and the next render
      throws on them. `None` stands for that state. */
  function SettleAsWritten<T>(s: ListState<T>, r: Result<ListData<T>>): (t: Option<ListState<T>>)
    ensures t.None? <==> r.Ok? && r.value.ArrayData?
  {
    match r
    case Ok(ArrayData(_)) => None
    case _ => Some(Settle(s, r))
  }

  /** `fetch*(page, query)` as written. */
  function FetchAsWritten<T>(s: ListState<T>, k: Api.Kind, page: int, query: string,
                             encode: string -> string, net: Api.Network<Api.Listing<T>>): Option<ListState<T>>
    requires Api.HasPagedList(k)
  {
    SettleAsWritten(Begin(s), Load(k, page, query, encode, net))
  }

  /** `fetch*(page, query)` with the search branch reading the array. Only the
      outcome of the request changes the results, the counts and the error;
      the query and the page position are the caller's business. */
  function Fetch<T>(s: ListState<T>, k: Api.Kind, page: int, query: string,
                    encode: string -> string, net: Api.Network<Api.Listing<T>>): (t: ListState<T>)
    requires Api.HasPagedList(k)
    ensures !t.loading
    ensures t.searchQuery == s.searchQuery && t.currentPage == s.currentPage
    ensures t.error.None? <==> Api.FetchByUrl(ListUrl(k, page, query, encode), net).Ok?
    ensures t.error.Some? ==> t.items == s.items && t.totalCount == s.totalCount
    ensures t.error.None? ==> t.items == Api.FetchByUrl(ListUrl(k, page, query, encode), net).value.results
  {
    Settle(Begin(s), Load(k, page, query, encode, net))
  }

  /** Fetching is a function of the request alone: fetching again with the
      same page and query leaves the state as it was after the first fetch. */
  lemma FetchIdempotent<T>(s: ListState<T>, k: Api.Kind, page: int, query: string,
                           encode: string -> string, net: Api.Network<Api.Listing<T>>)
    requires Api.HasPagedList(k)
    ensures var t := Fetch(s, k, page, query, encode, net);
      Fetch(t, k, page, query, encode, net) == t
  {
  }

  /** Where the two settle functions part: a successful search. */
  lemma SearchCrashesAsWritten<T>(s: ListState<T>, k: Api.Kind, query: string,
                                  encode: string -> string, net: Api.Network<Api.Listing<T>>, page: int)
    requires Api.HasPagedList(k) && query != ""
    requires net(ListUrl(k, page, query, encode)).Answered? && net(ListUrl(k, page, query, encode)).ok
    ensures FetchAsWritten(s, k, page, query, encode, net).None?
    ensures Fetch(s, k, page, query, encode, net).items == net(ListUrl(k, page, query, encode)).body.results
  {
  }

  /** Without a query, or when the request fails, the code as written and
      the corrected fetch agree. */
  lemma AsWrittenAgreesOffSearch<T>(s: ListState<T>, k: Api.Kind, page: int, query: string,
                                    encode: string -> string, net: Api.Network<Api.Listing<T>>)
    requires Api.HasPagedList(k)
    requires query == "" || !Api.FetchByUrl(ListUrl(k, page, query, encode), net).Ok?
    ensures FetchAsWritten(s, k, page, query, encode, net) == Some(Fetch(s, k, page, query, encode, net))
  {
  }

  /** The select value that switches the page's client-side filter off. */
  const NoFilter: string := "all"

  /** `field?.toLowerCase().includes(filter.toLowerCase())`; a missing field
      yields `undefined`, which the filter treats as false. */
  predicate FieldMatches(field: Option<string>, filter: string) {
    field.Some? && Text.Contains(Text.ToLower(field.value), Text.ToLower(filter))
  }

  /** The client-side filter of the planet and starship pages: everything for
      `"all"`, otherwise exactly the items whose field matches, each as often
      as before, in their original order. */
  function FilterByField<T(==,!new)>(xs: seq<T>, field: T -> Option<string>, filter: string): (r: seq<T>)
    ensures filter == NoFilter ==> r == xs
    ensures filter != NoFilter ==> forall i :: 0 <= i < |r| ==> FieldMatches(field(r[i]), filter)
    ensures filter != NoFilter ==>
      forall x :: FieldMatches(field(x), filter) ==> multiset(r)[x] == multiset(xs)[x]
    ensures Seqs.IsSubsequence(r, xs)
  {
    if filter == NoFilter then
      Seqs.SubsequenceOfSelf(xs);
      xs
    else
      var keep := (x: T) => FieldMatches(field(x), filter);
      var r := Seqs.Filter(xs, keep);
      assert forall i :: 0 <= i < |r| ==> keep(r[i]);
      r
  }

  /** Filtering the filtered list again changes nothing. */
  lemma FilterByFieldIdempotent<T(!new)>(xs: seq<T>, field: T -> Option<string>, filter: string)
    ensures FilterByField(FilterByField(xs, field, filter), field, filter) == FilterByField(xs, field, filter)
  {
    if filter != NoFilter {
      Seqs.FilterIdempotent(xs, (x: T) => FieldMatches(field(x), filter));
    }
  }

  /** Any filter other than `"all"` drops the items whose field is missing. */
  lemma FilterDropsMissingField<T(!new)>(xs: seq<T>, field: T -> Option<string>, filter: string, x: T)
    requires filter != NoFilter && field(x).None?
    ensures x !in FilterByField(xs, field, filter)
  {
  }

  /** The filter ignores the case of its value, as long as neither spelling is
      the literal `"all"`, which switches filtering off. */
  lemma FilterIgnoresCase<T(!new)>(xs: seq<T>, field: T -> Option<string>, filter: string)
    requires filter != NoFilter && Text.ToLower(filter) != NoFilter
    ensures FilterByField(xs, field, Text.ToLower(filter)) == FilterByField(xs, field, filter)
  {
    Text.ToLowerIdempotent(filter);
    Seqs.FilterCongruent(xs, (x: T) => FieldMatches(field(x), Text.ToLower(filter)),
                             (x: T) => FieldMatches(field(x), filter));
  }

  /** A transition's outcome: the state once every fetch it started has
      answered, and the URLs it requested, in order. */
  datatype Step<T> = Step(state: ListState<T>, requests: seq<string>)

  /** The mount effect: page 1 of the unfiltered listing. */
  function Mount<T>(k: Api.Kind, encode: string -> string, net: Api.Network<Api.Listing<T>>): (r: Step<T>)
    requires Api.HasPagedList(k)
    ensures r.requests == [Api.BaseUrl + Api.PagePath(k, 1)]
    ensures r.state.currentPage == 1 && r.state.searchQuery == ""
  {
    var s := Initial<T>();
    Step(Fetch(s, k, s.currentPage, s.searchQuery, encode, net), [ListUrl(k, s.currentPage, s.searchQuery, encode)])
  }

  /** `handleSearch(query)`: the query is stored, the page goes back to 1, and
      page 1 is fetched for the query. When the page was not already 1, the
      page change re-runs the effect, which sends the same request again. */
  function HandleSearch<T>(s: ListState<T>, k: Api.Kind, query: string,
                           encode: string -> string, net: Api.Network<Api.Listing<T>>): (r: Step<T>)
    requires Api.HasPagedList(k)
    ensures r.state.searchQuery == query && r.state.currentPage == 1
    ensures 1 <= |r.requests| <= 2
    ensures forall u <- r.requests :: u == ListUrl(k, 1, query, encode)
    ensures |r.requests| == 2 <==> s.currentPage != 1
  {
    var s1 := s.(searchQuery := query, currentPage := 1);
    var u := ListUrl(k, 1, query, encode);
    var t := Fetch(s1, k, 1, query, encode, net);
    if s.currentPage != 1 then Step(Fetch(t, k, 1, query, encode, net), [u, u])
    else Step(t, [u])
  }

  /** Whether the request is sent once or twice, the search ends in the state
      a single fetch for page 1 and the query produces. */
  lemma HandleSearchIsOneFetch<T>(s: ListState<T>, k: Api.Kind, query: string,
                                  encode: string -> string, net: Api.Network<Api.Listing<T>>)
    requires Api.HasPagedList(k)
    ensures HandleSearch(s, k, query, encode, net).state
      == Fetch(s.(searchQuery := query, currentPage := 1), k, 1, query, encode, net)
  {
    var s1 := s.(searchQuery := query, currentPage := 1);
    FetchIdempotent(s1, k, 1, query, encode, net);
  }

  /** `handlePageChange(page)`: the page is stored; only an actual change
      re-runs the effect, which fetches the new page with the stored query. */
  function HandlePageChange<T>(s: ListState<T>, k: Api.Kind, page: int,
                               encode: string -> string, net: Api.Network<Api.Listing<T>>): (r: Step<T>)
    requires Api.HasPagedList(k)
    ensures r.state.currentPage == page && r.state.searchQuery == s.searchQuery
    ensures page == s.currentPage <==> r.requests == []
    ensures page != s.currentPage ==> r.requests == [ListUrl(k, page, s.searchQuery, encode)]
  {
    if page == s.currentPage then Step(s, [])
    else Step(Fetch(s.(currentPage := page), k, page, s.searchQuery, encode, net),
              [ListUrl(k, page, s.searchQuery, encode)])
  }

  /** The error message's retry button: the current page and query again. */
  function Retry<T>(s: ListState<T>, k: Api.Kind, encode: string -> string,
                    net: Api.Network<Api.Listing<T>>): (r: Step<T>)
    requires Api.HasPagedList(k)
    ensures r.requests == [ListUrl(k, s.currentPage, s.searchQuery, encode)]
    ensures r.state.currentPage == s.currentPage && r.state.searchQuery == s.searchQuery
  {
    Step(Fetch(s, k, s.currentPage, s.searchQuery, encode, net),
         [ListUrl(k, s.currentPage, s.searchQuery, encode)])
  }

  /** A failed fetch leaves nothing behind but its message: retrying it,
      whatever the network answers now, ends where a first attempt at the
      same page and query from the earlier state would have ended. */
  lemma RetryAfterFailureIsFreshFetch<T>(s: ListState<T>, k: Api.Kind, encode: string -> string,
                                         net: Api.Network<Api.Listing<T>>, later: Api.Network<Api.Listing<T>>)
    requires Api.HasPagedList(k)
    requires Fetch(s, k, s.currentPage, s.searchQuery, encode, net).error.Some?
    ensures var t := Fetch(s, k, s.currentPage, s.searchQuery, encode, net);
      Retry(t, k, encode, later).state == Fetch(s, k, s.currentPage, s.searchQuery, encode, later)
  {
    var t := Fetch(s, k, s.currentPage, s.searchQuery, encode, net);
    assert Begin(t) == Begin(s);
  }

  /** The props handed to the pagination component. */
  datatype Pager = Pager(currentPage: int, totalPages: int, hasNext: bool, hasPrevious: bool)

  /** What the content area shows. */
  datatype View<T> =
    | Spinner
    | Failed(message: string)
    | NothingFound
    | Cards(cards: seq<T>, pager: Option<Pager>)

  /** The content area for the state and the results that survive the page's
      own filter: spinner, else error, else the empty message, else the cards,
      with pagination only when there is no search query. */
  function Render<T>(s: ListState<T>, shown: seq<T>): (v: View<T>)
    ensures v.Spinner? <==> s.loading
    ensures v.Failed? <==> !s.loading && s.error.Some?
    ensures v.Failed? ==> v.message == s.error.value
    ensures v.NothingFound? <==> !s.loading && s.error.None? && shown == []
    ensures v.Cards? ==> v.cards == shown
    ensures v.Cards? ==> (v.pager.Some? <==> s.searchQuery == "")
    ensures v.Cards? && v.pager.Some? ==>
      v.pager.value.currentPage == s.currentPage && v.pager.value.totalPages == s.totalPages &&
      (v.pager.value.hasNext <==> s.currentPage < s.totalPages) &&
      (v.pager.value.hasPrevious <==> s.currentPage > 1)
  {
    if s.loading then Spinner
    else if s.error.Some? then Failed(s.error.value)
    else if |shown| == 0 then NothingFound
    else Cards(shown, if s.searchQuery == "" then
      Some(Pager(s.currentPage, s.totalPages, s.currentPage < s.totalPages, s.currentPage > 1))
    else None)
  }

  /** After a search has answered with matches, the matches are shown without
      pagination; after a failed one, its error is shown. */
  lemma SearchHidesPager<T>(s: ListState<T>, k: Api.Kind, query: string,
                            encode: string -> string, net: Api.Network<Api.Listing<T>>)
    requires Api.HasPagedList(k) && query != ""
    ensures var t := HandleSearch(s, k, query, encode, net).state;
      var a := Api.FetchByUrl(ListUrl(k, 1, query, encode), net);
      (a.Ok? && a.value.results != [] ==> Render(t, t.items) == Cards(a.value.results, None)) &&
      (a.Err? ==> Render(t, t.items) == Failed(a.message))
  {
    HandleSearchIsOneFetch(s, k, query, encode, net);
  }

  /** After mounting, a first page with results is shown with pagination on
      page 1: no previous page, and a next page exactly when the count
      exceeds one page. */
  lemma MountShowsFirstPage<T>(k: Api.Kind, encode: string -> string, net: Api.Network<Api.Listing<T>>)
    requires Api.HasPagedList(k)
    requires Api.FetchByUrl(Api.BaseUrl + Api.PagePath(k, 1), net).Ok?
    requires Api.FetchByUrl(Api.BaseUrl + Api.PagePath(k, 1), net).value.results != []
    ensures var l := Api.FetchByUrl(Api.BaseUrl + Api.PagePath(k, 1), net).value;
      var t := Mount(k, encode, net).state;
      Render(t, t.items) == Cards(l.results, Some(Pager(1, t.totalPages, l.count > PageSize, false)))
  {
  }
}

=== FILE: numbers.dfy ===
/** Decimal numbers in text: JavaScript's `parseInt` (radix 10) and the decimal
    rendering of an integer (what a template literal `${n}` produces). */
module Numbers {
  import opened Wrappers
  import Text

  predicate IsDigit(c: char) {
    '0' <= c <= '9'
  }

  predicate AllDigits(s: string) {
    forall i :: 0 <= i < |s| ==> IsDigit(s[i])
  }

  function DigitValue(c: char): nat
    requires IsDigit(c)
  {
    c as int - '0' as int
  }

  function DigitChar(d: nat): char
    requires d < 10
  {
    ('0' as int + d) as char
  }

  /** Value of a decimal digit string, most significant digit first; `""` is 0. */
  function DigitsValue(ds: string): nat
    requires AllDigits(ds)
    decreases |ds|
  {
    if |ds| == 0 then 0 else DigitsValue(ds[..|ds| - 1]) * 10 + DigitValue(ds[|ds| - 1])
  }

  /** Length of the longest prefix of `s` that consists of digits. */
  function DigitPrefixLength(s: string): (n: nat)
    ensures n <= |s| && AllDigits(s[..n])
    ensures n == |s| || !IsDigit(s[n])
  {
    if |s| > 0 && IsDigit(s[0]) then 1 + DigitPrefixLength(s[1..]) else 0
  }

  /** Decimal text of `n`: no sign, no leading zero, `"0"` for zero. */
  function ShowNat(n: nat): (r: string)
    ensures |r| >= 1 && AllDigits(r)
    ensures |r| > 1 ==> r[0] != '0'
    decreases n
  {
    if n < 10 then [DigitChar(n)] else ShowNat(n / 10) + [DigitChar(n % 10)]
  }

  /** Decimal text of `n`, with a leading `-` when negative. */
  function ShowInt(n: int): string {
    if n < 0 then "-" + ShowNat(-n) else ShowNat(n)
  }

  /** Reading back the digits `ShowNat` writes gives the number. */
  lemma {:induction false} ShowNatValue(n: nat)
    ensures DigitsValue(ShowNat(n)) == n
    decreases n
  {
    if n >= 10 {
      var s := ShowNat(n / 10);
      ShowNatValue(n / 10);
      assert (s + [DigitChar(n % 10)])[..|s|] == s;
    }
  }

  /** A run of digits followed by a non-digit (or nothing) is exactly the digit prefix. */
  lemma {:induction false} DigitPrefixOfDigits(ds: string, rest: string)
    requires AllDigits(ds)
    requires rest == [] || !IsDigit(rest[0])
    ensures DigitPrefixLength(ds + rest) == |ds|
    decreases |ds|
  {
    if |ds| > 0 {
      assert (ds + rest)[1..] == ds[1..] + rest;
      DigitPrefixOfDigits(ds[1..], rest);
    } else {
      assert ds + rest == rest;
    }
  }

  /** The value of the digit run at the start of `u`, or `None` when `u` does
      not start with a digit. */
  function ReadDigits(u: string): Option<nat> {
    var k := DigitPrefixLength(u);
    if k == 0 then None else Some(DigitsValue(u[..k]))
  }

  /** `parseInt(s)` for radix 10: skip leading whitespace, read an optional
      sign and then the longest run of decimal digits. `None` stands for
      `NaN`, the result when that run is empty. */
  function ParseInt(s: string): Option<int> {
    ReadSigned(Text.TrimStart(s))
  }

  /** An optional sign followed by the digit run at the start of `t`. */
  function ReadSigned(t: string): Option<int> {
    if |t| > 0 && (t[0] == '-' || t[0] == '+') then
      match ReadDigits(t[1..])
      case None => None
      case Some(v) => var x: int := v; Some(if t[0] == '-' then -x else x)
    else
      match ReadDigits(t)
      case None => None
      case Some(v) => Some(v)
  }

  /** A digit string followed by a non-digit reads as its value. */
  lemma ReadShownDigits(m: nat, rest: string)
    requires rest == [] || !IsDigit(rest[0])
    ensures ReadDigits(ShowNat(m) + rest) == Some(m)
  {
    var ds := ShowNat(m);
    ShowNatValue(m);
    DigitPrefixOfDigits(ds, rest);
    assert (ds + rest)[..|ds|] == ds;
  }

  /** Text that does not start with whitespace is read from its first character. */
  lemma ParseIntNoLeadingSpace(s: string)
    requires |s| > 0 && !Text.IsWhitespace(s[0])
    ensures ParseInt(s) == ReadSigned(s)
  {
    assert Text.TrimStart(s) == s;
  }

  /** Round trip: the decimal text of any integer, followed by anything that
      does not continue the digit run, parses back to that integer. */
  lemma ParseShowInt(n: int, rest: string)
    requires rest == [] || !IsDigit(rest[0])
    ensures ParseInt(ShowInt(n) + rest) == Some(n)
  {
    var m: nat := if n < 0 then -n else n;
    var u := ShowNat(m) + rest;
    ReadShownDigits(m, rest);
    assert IsDigit(u[0]);
    if n < 0 {
      var s := "-" + u;
      assert ShowInt(n) + rest == s;
      ReadSignedNegative(u);
      ParseIntNoLeadingSpace(s);
    } else {
      assert ShowInt(n) + rest == u;
      ParseIntNoLeadingSpace(u);
    }
  }

  /** A minus sign negates the digit run after it. */
  lemma ReadSignedNegative(u: string)
    requires ReadDigits(u).Some?
    ensures ReadSigned("-" + u) == Some(-(ReadDigits(u).value as int))
  {
    assert ("-" + u)[1..] == u;
  }

  /** Leading whitespace does not change what `parseInt` reads. */
  lemma ParseIntSkipsWhitespace(w: string, s: string)
    requires Text.WhitespaceBetween(w, 0, |w|)
    ensures ParseInt(w + s) == ParseInt(s)
  {
    Text.TrimStartSkips(w, s);
  }

  /** Text without any digit, such as `"unknown"` or `"n/a"`, reads as `NaN`. */
  lemma ParseIntWithoutDigits(s: string)
    requires forall i :: 0 <= i < |s| ==> !IsDigit(s[i])
    ensures ParseInt(s) == None
  {
    var t := Text.TrimStart(s);
    assert forall i :: 0 <= i < |t| ==> !IsDigit(t[i]) by {
      assert forall i :: 0 <= i < |t| ==> t[i] == s[|s| - |t| + i];
    }
    assert ReadDigits(t) == None;
    assert |t| > 1 ==> !IsDigit(t[1..][0]);
    assert |t| > 0 ==> ReadDigits(t[1..]) == None;
  }
}

=== FILE: pagination.dfy ===
/** The pagination bar of the list pages: a window of at most five page
    numbers around the current page, the first and last page when the window
    does not reach them, ellipses for skipped pages, and previous/next arrows. */
module Pagination {
  import opened Wrappers

  /** The widest window of page numbers shown at once. */
  const MaxVisible: int := 5

  function Min(a: int, b: int): int {
    if a <= b then a else b
  }

  function Max(a: int, b: int): int {
    if a >= b then a else b
  }

  /** First and last page number of the window (inclusive); empty when `end < start`. */
  datatype Window = Window(start: int, end: int) {
    function Length(): int {
      if end >= start then end - start + 1 else 0
    }
  }

  /** The window: start two pages before the current page (not before page 1),
      take five pages (not past the last page) and, when that is short, slide the
      start back so that five pages show if there are five. */
  function Bounds(currentPage: int, totalPages: int): (w: Window)
    ensures w.start >= 1 && w.end <= totalPages
    ensures w.start <= w.end <==> totalPages >= 1
    ensures w.end < w.start ==> w.start == 1
    ensures w.Length() <= MaxVisible
    ensures w.end < totalPages ==> w.Length() == MaxVisible
    ensures 1 <= currentPage <= totalPages ==>
      w.start <= currentPage <= w.end && w.Length() == Min(MaxVisible, totalPages)
  {
    var start := Max(1, currentPage - MaxVisible / 2);
    var end := Min(totalPages, start + MaxVisible - 1);
    if end - start + 1 < MaxVisible then Window(Max(1, end - MaxVisible + 1), end)
    else Window(start, end)
  }

  /** The `pages` array: every number of the window, in order. */
  function Pages(currentPage: int, totalPages: int): (pages: seq<int>)
    ensures forall i :: 0 <= i < |pages| ==> 1 <= pages[i] <= totalPages
    ensures forall i :: 0 <= i < |pages| - 1 ==> pages[i + 1] == pages[i] + 1
    ensures |pages| <= MaxVisible
    ensures |pages| == 0 <==> totalPages < 1
    ensures 1 <= currentPage <= totalPages ==>
      currentPage in pages && |pages| == Min(MaxVisible, totalPages)
  {
    var w := Bounds(currentPage, totalPages);
    var pages := seq(w.Length(), i requires 0 <= i < w.Length() => w.start + i);
    assert 1 <= currentPage <= totalPages ==> pages[currentPage - w.start] == currentPage;
    pages
  }

  /** One element of the bar. Only the buttons of the window are highlighted;
      the extra first-page and last-page buttons never are. */
  datatype Control =
    | Previous(target: int, enabled: bool)
    | PageButton(page: int, isCurrent: bool)
    | Ellipsis
    | Next(target: int, enabled: bool)

  /** Page 1 and, when pages 2.. are skipped, an ellipsis; nothing when the window starts at 1. */
  function Lead(w: Window): seq<Control> {
    if w.start > 1 then [PageButton(1, false)] + (if w.start > 2 then [Ellipsis] else []) else []
  }

  /** One button per page of the window; the current page is highlighted. */
  function WindowButtons(w: Window, currentPage: int): seq<Control> {
    seq(w.Length(), i requires 0 <= i < w.Length() => PageButton(w.start + i, w.start + i == currentPage))
  }

  /** An ellipsis when pages before the last are skipped, then the last page;
      nothing when the window reaches the last page. */
  function Trail(w: Window, totalPages: int): seq<Control> {
    if w.end < totalPages then (if w.end < totalPages - 1 then [Ellipsis] else []) + [PageButton(totalPages, false)] else []
  }

  /** The numbered part of the bar. */
  function Strip(currentPage: int, totalPages: int): seq<Control> {
    var w := Bounds(currentPage, totalPages);
    Lead(w) + WindowButtons(w, currentPage) + Trail(w, totalPages)
  }

  /** The facts about the window that the layout of the bar relies on. */
  predicate WindowFits(w: Window, totalPages: int) {
    && w.start >= 1 && w.end <= totalPages
    && (w.end < w.start ==> w.start == 1)
    && (w.end < totalPages ==> w.start <= w.end)
  }

  /** What sits at each position of the numbered part. */
  lemma StripAt(currentPage: int, totalPages: int, i: int)
    requires 0 <= i < |Strip(currentPage, totalPages)|
    ensures var w := Bounds(currentPage, totalPages);
      var s := Strip(currentPage, totalPages);
      var L := |Lead(w)|;
      var M := w.Length();
      && WindowFits(w, totalPages)
      && |s| == L + M + |Trail(w, totalPages)|
      && (i < L ==> (i == 0 && s[i] == PageButton(1, false)) || (i == 1 && s[i] == Ellipsis && w.start > 2 && M > 0))
      && (L <= i < L + M ==> s[i] == PageButton(w.start + (i - L), w.start + (i - L) == currentPage))
      && (L + M <= i ==> (i == |s| - 1 && s[i] == PageButton(totalPages, false) && M > 0)
                         || (i == L + M && i < |s| - 1 && s[i] == Ellipsis && w.end < totalPages - 1))
  {
  }

  /** The whole bar: previous arrow, numbered part, next arrow. */
  function Render(currentPage: int, totalPages: int, hasNext: bool, hasPrevious: bool): seq<Control> {
    [Previous(currentPage - 1, hasPrevious)] + Strip(currentPage, totalPages) + [Next(currentPage + 1, hasNext)]
  }

  /** The page number a click on `c` passes to `onPageChange`; a disabled arrow
      and an ellipsis pass nothing. */
  function Click(c: Control): Option<int> {
    match c
    case Previous(t, enabled) => if enabled then Some(t) else None
    case PageButton(p, _) => Some(p)
    case Ellipsis => None
    case Next(t, enabled) => if enabled then Some(t) else None
  }

  /** An ellipsis appears exactly where page numbers are skipped: neighbouring
      buttons show consecutive pages, and an ellipsis sits between two buttons
      whose pages are more than one apart. */
  predicate EllipsesMarkSkips(s: seq<Control>) {
    && (forall i :: 0 <= i < |s| ==> s[i].PageButton? || s[i].Ellipsis?)
    && (forall i :: 0 <= i < |s| - 1 && s[i].PageButton? && s[i + 1].PageButton? ==> s[i + 1].page == s[i].page + 1)
    && (forall i :: 0 <= i < |s| && s[i].Ellipsis? ==>
          0 < i < |s| - 1 && s[i - 1].PageButton? && s[i + 1].PageButton? && s[i + 1].page > s[i - 1].page + 1)
  }

  /** Neighbouring buttons show consecutive pages and every ellipsis stands for skipped pages. */
  lemma StripEllipsesMarkSkips(currentPage: int, totalPages: int)
    ensures EllipsesMarkSkips(Strip(currentPage, totalPages))
  {
    var s := Strip(currentPage, totalPages);
    forall i | 0 <= i < |s| ensures s[i].PageButton? || s[i].Ellipsis? {
      StripAt(currentPage, totalPages, i);
    }
    forall i | 0 <= i < |s| - 1 && s[i].PageButton? && s[i + 1].PageButton?
      ensures s[i + 1].page == s[i].page + 1
    {
      StripAt(currentPage, totalPages, i);
      StripAt(currentPage, totalPages, i + 1);
    }
    forall i | 0 <= i < |s| && s[i].Ellipsis?
      ensures 0 < i < |s| - 1 && s[i - 1].PageButton? && s[i + 1].PageButton? && s[i + 1].page > s[i - 1].page + 1
    {
      StripAt(currentPage, totalPages, i);
      StripAt(currentPage, totalPages, i - 1);
      StripAt(currentPage, totalPages, i + 1);
    }
  }

  /** Every numbered button names an existing page, and the numbers strictly increase. */
  lemma StripPagesIncrease(currentPage: int, totalPages: int)
    ensures var s := Strip(currentPage, totalPages);
      && (forall i :: 0 <= i < |s| && s[i].PageButton? ==> 1 <= s[i].page <= totalPages)
      && (forall i, j :: 0 <= i < j < |s| && s[i].PageButton? && s[j].PageButton? ==> s[i].page < s[j].page)
  {
    var s := Strip(currentPage, totalPages);
    forall i | 0 <= i < |s| && s[i].PageButton? ensures 1 <= s[i].page <= totalPages {
      StripAt(currentPage, totalPages, i);
    }
    forall i, j | 0 <= i < j < |s| && s[i].PageButton? && s[j].PageButton?
      ensures s[i].page < s[j].page
    {
      StripAt(currentPage, totalPages, i);
      StripAt(currentPage, totalPages, j);
    }
  }

  /** The first and the last page are always reachable in one click; with no
      pages there is no numbered button at all. */
  lemma StripEnds(currentPage: int, totalPages: int)
    ensures var s := Strip(currentPage, totalPages);
      && (totalPages >= 1 ==> |s| > 0 && s[0] == PageButton(1, s[0].isCurrent)
                              && s[|s| - 1] == PageButton(totalPages, s[|s| - 1].isCurrent))
      && (totalPages < 1 ==> s == [])
  {
    var s := Strip(currentPage, totalPages);
    var w := Bounds(currentPage, totalPages);
    if totalPages >= 1 {
      assert w.Length() > 0;
      StripAt(currentPage, totalPages, 0);
      StripAt(currentPage, totalPages, |s| - 1);
    }
  }

  /** Only the current page is highlighted, and a valid current page always is. */
  lemma StripHighlightsCurrent(currentPage: int, totalPages: int)
    ensures var s := Strip(currentPage, totalPages);
      && (forall i :: 0 <= i < |s| && s[i].PageButton? && s[i].isCurrent ==> s[i].page == currentPage)
      && (1 <= currentPage <= totalPages ==> exists i :: 0 <= i < |s| && s[i] == PageButton(currentPage, true))
  {
    var s := Strip(currentPage, totalPages);
    var w := Bounds(currentPage, totalPages);
    forall i | 0 <= i < |s| && s[i].PageButton? && s[i].isCurrent ensures s[i].page == currentPage {
      StripAt(currentPage, totalPages, i);
    }
    if 1 <= currentPage <= totalPages {
      StripAt(currentPage, totalPages, |Lead(w)| + currentPage - w.start);
    }
  }

  /** With the flags every list page passes (`hasNext` iff `currentPage <
      totalPages`, `hasPrevious` iff `currentPage > 1`) and a valid current page,
      every click asks for a page in `1..totalPages`: previous asks for
      `currentPage - 1`, next for `currentPage + 1`, a number button for its page. */
  lemma ClicksStayInRange(currentPage: int, totalPages: int)
    requires 1 <= currentPage <= totalPages
    ensures var bar := Render(currentPage, totalPages, currentPage < totalPages, currentPage > 1);
      forall i :: 0 <= i < |bar| && Click(bar[i]).Some? ==>
        && 1 <= Click(bar[i]).value <= totalPages
        && (bar[i].Previous? ==> Click(bar[i]).value == currentPage - 1)
        && (bar[i].Next? ==> Click(bar[i]).value == currentPage + 1)
  {
    var bar := Render(currentPage, totalPages, currentPage < totalPages, currentPage > 1);
    var s := Strip(currentPage, totalPages);
    StripPagesIncrease(currentPage, totalPages);
    assert forall i :: 1 <= i < |bar| - 1 ==> bar[i] == s[i - 1];
  }

  /** A disabled arrow does nothing when clicked. */
  lemma DisabledArrowsAreInert(currentPage: int, totalPages: int, hasNext: bool, hasPrevious: bool)
    ensures var bar := Render(currentPage, totalPages, hasNext, hasPrevious);
      && bar[0].Previous? && bar[|bar| - 1].Next?
      && (Click(bar[0]).Some? <==> hasPrevious)
      && (Click(bar[|bar| - 1]).Some? <==> hasNext)
  {
  }
}

=== FILE: planet_detail.dfy ===
/** The planet detail page: the planet is fetched by id, then up to eight of
    its residents, then all of its films; the page then shows the planet's
    figures and links to what was fetched. */
module PlanetDetail {
  import opened Wrappers
  import opened Entities
  import Api
  import Seqs
  import Text
  import Format
  import Detail

  /** At most this many residents are fetched and shown. */
  const ResidentLimit: nat := 8

  datatype State = State(
    planet: Option<Planet>,
    residents: seq<Person>,
    films: seq<Film>,
    loading: bool,
    error: Option<string>)

  function Initial(): (s: State)
    ensures s.loading && s.planet.None? && s.error.None?
  {
    State(None, [], [], true, None)
  }

  /** The resident URLs requested: the first eight, in order, and none for a
      planet without residents. */
  function ResidentUrls(p: Planet): (r: seq<string>)
    ensures |r| == if |p.residents| < ResidentLimit then |p.residents| else ResidentLimit
    ensures r == p.residents[..|r|]
  {
    if |p.residents| > 0 then Seqs.Take(p.residents, ResidentLimit) else []
  }

  /** The film URLs requested: all of them, in order, and none for a planet
      without films. */
  function FilmUrls(p: Planet): seq<string> {
    if |p.films| > 0 then p.films else []
  }

  /** The page's endpoint for `id`. */
  function PlanetUrl(id: string): string {
    Api.BaseUrl + Api.ByIdPath(Api.Planets, id)
  }

  datatype Step = Step(state: State, requests: seq<string>)

  /** The mount effect. The stages run in order and a failure ends the run:
      the planet, then its residents, then its films. */
  function Mount(id: string, planets: Api.Network<Planet>, people: Api.Network<Person>,
                 films: Api.Network<Film>): (r: Step)
    ensures !r.state.loading
    ensures var e := Api.FetchByUrl(PlanetUrl(id), planets);
      (e.Err? ==> r.requests == [PlanetUrl(id)] && r.state.error == Some(e.message) && r.state.planet.None?) &&
      (e.Ok? ==> r.state.planet == Some(e.value))
    ensures var e := Api.FetchByUrl(PlanetUrl(id), planets);
      e.Ok? ==>
        var rs := Detail.FetchAll(ResidentUrls(e.value), people);
        (rs.Err? ==> r.requests == [PlanetUrl(id)] + ResidentUrls(e.value) && r.state.error == Some(rs.message)) &&
        (rs.Ok? ==>
          r.requests == [PlanetUrl(id)] + ResidentUrls(e.value) + FilmUrls(e.value) && r.state.residents == rs.value &&
          var fs := Detail.FetchAll(FilmUrls(e.value), films);
          (fs.Err? ==> r.state.error == Some(fs.message)) &&
          (fs.Ok? ==> r.state.error.None? && r.state.films == fs.value))
    ensures r.state.error.None? ==>
      r.state.planet.Some? &&
      |r.state.residents| == |ResidentUrls(r.state.planet.value)| &&
      Detail.FetchAll(FilmUrls(r.state.planet.value), films) == Ok(r.state.films)
  {
    var url := PlanetUrl(id);
    match Api.GetById(Api.Planets, id, planets)
    case Err(m) => Step(State(None, [], [], false, Some(m)), [url])
    case Ok(p) =>
      var ru := ResidentUrls(p);
      match Detail.FetchAll(ru, people)
      case Err(m) => Step(State(Some(p), [], [], false, Some(m)), [url] + ru)
      case Ok(rs) =>
        var fu := FilmUrls(p);
        match Detail.FetchAll(fu, films)
        case Err(m) => Step(State(Some(p), rs, [], false, Some(m)), [url] + ru + fu)
        case Ok(fs) => Step(State(Some(p), rs, fs, false, None), [url] + ru + fu)
  }

  /** What the loaded page shows. */
  datatype Content = Content(
    terrain: string,
    population: Format.Shown,
    diameter: Format.Label,
    surfaceWater: string,
    rotation: string,
    orbit: string,
    residentCount: nat,
    filmCount: nat,
    residentLinks: seq<string>,
    caption: Option<(nat, nat)>,
    filmLinks: seq<string>)

  /** `planet.terrain?.split(",")[0]`: nothing when the terrain is missing. */
  function TerrainBadge(p: Planet): (r: string)
    ensures p.terrain.None? ==> r == ""
    ensures p.terrain.Some? ==>
      var t := p.terrain.value;
      |r| <= |t| && r == t[..|r|] &&
      (forall i :: 0 <= i < |r| ==> r[i] != ',') &&
      (|r| == |t| || t[|r|] == ',')
  {
    match p.terrain
    case None => ""
    case Some(t) =>
      Text.FirstSegmentIsCommaFreePrefix(t);
      Text.FirstSegment(t)
  }

  /** The page body. The "Showing X of Y" caption sits in the residents
      section, which exists only when residents were loaded, and appears only
      for a planet with more than eight residents. */
  function ContentOf(p: Planet, residents: seq<Person>, films: seq<Film>): (c: Content)
    ensures c.caption.Some? <==> residents != [] && |p.residents| > ResidentLimit
    ensures c.caption.Some? ==> c.caption.value == (|residents|, |p.residents|)
    ensures !c.population.Scaled?
  {
    Content(
      TerrainBadge(p),
      Format.Plain(p.population),
      Format.MeasureOrUnknown(p.diameter, " km"),
      Format.TextOrUnknown(p.surfaceWater, "%"),
      Format.TextOrUnknown(p.rotationPeriod, " hours"),
      Format.TextOrUnknown(p.orbitalPeriod, " days"),
      |p.residents|,
      |p.films|,
      Detail.Links("/characters", residents, (x: Person) => x.url),
      if residents != [] && |p.residents| > ResidentLimit then Some((|residents|, |p.residents|)) else None,
      Detail.Links("/films", films, (x: Film) => x.url))
  }

  function View(s: State): Detail.View<Content> {
    Detail.Render(s.loading, s.error, s.planet, (p: Planet) => ContentOf(p, s.residents, s.films))
  }

  /** Once the mount effect has finished, the page shows either the error of
      the stage that failed or the planet; "Planet not found" cannot appear,
      because the planet is stored before any later stage can fail. */
  lemma MountEndsInErrorOrContent(id: string, planets: Api.Network<Planet>, people: Api.Network<Person>,
                                  films: Api.Network<Film>)
    ensures var v := View(Mount(id, planets, people, films).state);
      v.Failed? || v.Content?
    ensures var s := Mount(id, planets, people, films).state;
      View(s).Content? <==> s.error.None?
  {
  }

  /** On a loaded page the caption reads "Showing 8 of Y" exactly when the
      planet has more than eight residents. */
  lemma CaptionAfterMount(id: string, planets: Api.Network<Planet>, people: Api.Network<Person>,
                          films: Api.Network<Film>)
    requires View(Mount(id, planets, people, films).state).Content?
    ensures var s := Mount(id, planets, people, films).state;
      var c := View(s).content;
      (c.caption.Some? <==> |s.planet.value.residents| > ResidentLimit) &&
      (c.caption.Some? ==> c.caption.value == (ResidentLimit, |s.planet.value.residents|))
  {
  }

  /** The surface water, rotation and orbit lines read "Unknown" exactly for
      `"unknown"`, and otherwise give back the value before the unit. */
  lemma FiguresShownFaithfully(p: Planet, residents: seq<Person>, films: seq<Film>)
    ensures var c := ContentOf(p, residents, films);
      (c.surfaceWater == "Unknown" <==> p.surfaceWater == "unknown") &&
      (c.rotation == "Unknown" <==> p.rotationPeriod == "unknown") &&
      (c.orbit == "Unknown" <==> p.orbitalPeriod == "unknown")
  {
    Format.TextOrUnknownFaithful(p.surfaceWater, p.surfaceWater, "%");
    Format.TextOrUnknownFaithful(p.rotationPeriod, p.rotationPeriod, " hours");
    Format.TextOrUnknownFaithful(p.orbitalPeriod, p.orbitalPeriod, " days");
  }
}

=== FILE: planets_page.dfy ===
/** The planet list page: the shared list-page state, plus the client-side
    climate filter, the list of distinct climates, and the card's display
    rules. */
module PlanetsPage {
  import Text
  import Seqs
  import Format
  import ListPages
  import Api
  import Numbers
  import opened Wrappers
  import opened Entities

  /** `filteredPlanets`: everything for `"all"`, otherwise exactly the planets
      whose climate contains the filter, ignoring case, in their original
      order; planets without a climate never match. */
  function FilterByClimate(planets: seq<Planet>, filter: string): (r: seq<Planet>)
    ensures filter == ListPages.NoFilter ==> r == planets
    ensures filter != ListPages.NoFilter ==> forall i :: 0 <= i < |r| ==>
      r[i].climate.Some? && Text.Contains(Text.ToLower(r[i].climate.value), Text.ToLower(filter))
    ensures filter != ListPages.NoFilter ==> forall p: Planet :: ListPages.FieldMatches(p.climate, filter) ==>
      multiset(r)[p] == multiset(planets)[p]
    ensures Seqs.IsSubsequence(r, planets)
  {
    ListPages.FilterByField(planets, (p: Planet) => p.climate, filter)
  }

  /** `planet.climate?.split(", ") || []`. */
  function ClimateSegments(p: Planet): (r: seq<string>)
    ensures p.climate.None? <==> r == []
  {
    match p.climate
    case None => []
    case Some(c) => Text.Split(c, ", ")
  }

  /** The segments of a climate joined again give the climate back. */
  lemma ClimateSegmentsRejoin(p: Planet)
    requires p.climate.Some?
    ensures Text.Join(ClimateSegments(p), ", ") == p.climate.value
  {
    Text.JoinSplit(p.climate.value, ", ");
  }

  /** `planets.flatMap(...)`: every planet's segments, in list order. */
  function AllSegments(planets: seq<Planet>): seq<string> {
    Seqs.Flatten(seq(|planets|, i requires 0 <= i < |planets| => ClimateSegments(planets[i])))
  }

  /** `x` is a segment of the climate of one of the planets. */
  predicate IsClimateOf(planets: seq<Planet>, x: string) {
    exists i :: 0 <= i < |planets| && x in ClimateSegments(planets[i])
  }

  lemma InAllSegments(planets: seq<Planet>, x: string)
    ensures x in AllSegments(planets) <==> IsClimateOf(planets, x)
  {
    var ss := seq(|planets|, i requires 0 <= i < |planets| => ClimateSegments(planets[i]));
    Seqs.InFlatten(ss, x);
    assert forall i :: 0 <= i < |planets| ==> ss[i] == ClimateSegments(planets[i]);
  }

  /** `climates`: `"all"` followed by the distinct climate segments of the
      loaded planets, each once, in order of first appearance. */
  function Climates(planets: seq<Planet>): (r: seq<string>)
    ensures |r| >= 1 && r[0] == ListPages.NoFilter
    ensures Seqs.NoDuplicates(r[1..])
    ensures forall x :: x in r[1..] <==> IsClimateOf(planets, x)
    ensures forall i :: 1 <= i < |r| ==> r[i] in AllSegments(planets)
    ensures forall i, j :: 1 <= i < j < |r| ==>
      Seqs.FirstIndex(AllSegments(planets), r[i]) < Seqs.FirstIndex(AllSegments(planets), r[j])
  {
    var d := Seqs.Dedup(AllSegments(planets));
    forall x ensures x in d <==> IsClimateOf(planets, x) {
      InAllSegments(planets, x);
    }
    var r := [ListPages.NoFilter] + d;
    assert r[1..] == d;
    r
  }

  /** The diameter line: `"Unknown"`, or the parsed number with `" km"`. */
  function DiameterLabel(p: Planet): (r: Format.Label)
    ensures p.diameter == "unknown" <==> r.value == Format.Literal("Unknown")
    ensures p.diameter != "unknown" ==> r.unit == " km"
  {
    Format.MeasureOrUnknown(p.diameter, " km")
  }

  /** The terrain badge: the first comma segment, or "Unknown" when the
      terrain is missing or starts with a comma. */
  function TerrainBadge(p: Planet): (r: string)
    ensures p.terrain.None? ==> r == "Unknown"
    ensures r != "Unknown" ==> p.terrain.Some? && r == Text.FirstSegment(p.terrain.value)
    ensures p.terrain.Some? && Text.FirstSegment(p.terrain.value) != "" ==> r == Text.FirstSegment(p.terrain.value)
    ensures p.terrain.Some? && Text.FirstSegment(p.terrain.value) == "" ==> r == "Unknown"
  {
    match p.terrain
    case None => "Unknown"
    case Some(t) => if Text.FirstSegment(t) == "" then "Unknown" else Text.FirstSegment(t)
  }

  /** What a planet's card shows. */
  datatype Card = Card(
    link: string,
    name: string,
    terrain: string,
    population: Format.Shown,
    diameter: Format.Label,
    residents: nat,
    films: nat)

  /** The card links into the planet routes, always shows a terrain badge,
      and counts the planet's resident and film URLs. */
  function CardOf(p: Planet): (r: Card)
    ensures |r.link| > |"/planets/"| && r.link[..|"/planets/"|] == "/planets/"
    ensures r.terrain != ""
    ensures r.residents == |p.residents| && r.films == |p.films|
    ensures r.population.Scaled? <==>
      p.population != "unknown" && Numbers.ParseInt(p.population).Some? &&
      Numbers.ParseInt(p.population).value >= 1000
  {
    Card(Api.DetailRoute("/planets", p.url), p.name, TerrainBadge(p),
         Format.Compact(p.population), DiameterLabel(p), |p.residents|, |p.films|)
  }

  /** A planet with a canonical SWAPI URL links to its own detail route, and
      its population is abbreviated exactly when it is a number of at least
      1000. */
  lemma CardOfCanonicalPlanet(p: Planet, id: string)
    requires |id| > 0 && Numbers.AllDigits(id)
    requires p.url == Api.BaseUrl + Api.ByIdPath(Api.Planets, id)
    ensures CardOf(p).link == "/planets/" + id
    ensures CardOf(p).population.Scaled? <==>
      p.population != "unknown" && Numbers.ParseInt(p.population).Some? &&
      Numbers.ParseInt(p.population).value >= 1000
  {
    Api.DetailRouteOfCanonicalUrl("/planets", Api.Planets, id);
  }

  /** The page's content area: the shared list view over the filtered planets. */
  function View(s: ListPages.ListState<Planet>, climateFilter: string): (v: ListPages.View<Planet>)
    ensures v.Cards? ==> v.cards == FilterByClimate(s.items, climateFilter) && v.cards != []
    ensures v.NothingFound? <==> !s.loading && s.error.None? && FilterByClimate(s.items, climateFilter) == []
  {
    ListPages.Render(s, FilterByClimate(s.items, climateFilter))
  }

  /** With the filter on `"all"` the page shows every loaded planet. */
  lemma AllClimatesShowsEverything(s: ListPages.ListState<Planet>)
    requires !s.loading && s.error.None? && s.items != []
    ensures View(s, ListPages.NoFilter).Cards? && View(s, ListPages.NoFilter).cards == s.items
  {
  }
}

=== FILE: search_bar.dfy ===
/** The search box: its text value and the queries it hands to the page.
    Typing changes the value only; submitting hands over the trimmed value;
    the clear button empties the value and hands over the empty query. */
module SearchBar {
  import opened Wrappers
  import Text
  import Api
  import ListPages

  /** The value the box starts with: the `initialValue` prop, `""` by default. */
  function InitialValue(initialValue: Option<string>): (v: string)
    ensures initialValue.None? ==> v == ""
    ensures initialValue.Some? ==> v == initialValue.value
  {
    initialValue.GetOr("")
  }

  datatype Event = Typed(text: string) | Submitted | Cleared

  /** The box after an event, and the query handed to `onSearch`, if any. */
  datatype Outcome = Outcome(value: string, emitted: Option<string>)

  function Handle(value: string, e: Event): (r: Outcome)
    ensures e.Typed? ==> r.value == e.text && r.emitted.None?
    ensures e.Submitted? ==> r.value == value && r.emitted.Some? && Text.IsTrimmingOf(r.emitted.value, value)
    ensures e.Cleared? ==> r.value == "" && r.emitted == Some("")
  {
    match e
    case Typed(t) => Outcome(t, None)
    case Submitted => Outcome(value, Some(Text.Trim(value)))
    case Cleared => Outcome("", Some(""))
  }

  /** The clear button is rendered only while the box holds some text. */
  predicate ClearButtonVisible(value: string) {
    value != ""
  }

  /** Clearing hides the clear button, typing shows it exactly for non-empty
      text, and submitting leaves it as it was. */
  lemma ClearButtonFollowsEvents(value: string, t: string)
    ensures !ClearButtonVisible(Handle(value, Cleared).value)
    ensures ClearButtonVisible(Handle(value, Typed(t)).value) <==> t != ""
    ensures ClearButtonVisible(Handle(value, Submitted).value) <==> ClearButtonVisible(value)
  {
  }

  /** Every query the box hands over has no whitespace at either end. */
  lemma EmittedIsTrimmed(value: string, e: Event)
    requires Handle(value, e).emitted.Some?
    ensures Text.IsTrimmed(Handle(value, e).emitted.value)
  {
  }

  /** Submitting a value without surrounding whitespace hands it over as it is,
      so submitting the handed-over query again repeats it. */
  lemma SubmitTrimmedValue(value: string)
    requires Text.IsTrimmed(value)
    ensures Handle(value, Submitted).emitted == Some(value)
  {
    Text.TrimOfTrimmed(value);
  }

  /** Submitting only whitespace hands over the empty query, as the clear
      button does. */
  lemma SubmitBlankIsClear(value: string)
    requires Text.WhitespaceBetween(value, 0, |value|)
    ensures Handle(value, Submitted).emitted == Handle(value, Cleared).emitted
  {
  }

  /** The box after a run of events, and every query it handed over in order. */
  function Run(value: string, events: seq<Event>): (r: (string, seq<string>))
    ensures forall i :: 0 <= i < |r.1| ==> Text.IsTrimmed(r.1[i])
    ensures |r.1| <= |events|
    decreases |events|
  {
    if |events| == 0 then (value, [])
    else
      var o := Handle(value, events[0]);
      var rest := Run(o.value, events[1..]);
      match o.emitted
      case Some(q) => (rest.0, [q] + rest.1)
      case None => rest
  }

  /** Clearing after any typing leaves the list page fetching the unfiltered
      first page. */
  lemma ClearShowsFirstPage<T>(s: ListPages.ListState<T>, k: Api.Kind, value: string,
                               encode: string -> string, net: Api.Network<Api.Listing<T>>)
    requires Api.HasPagedList(k)
    ensures var q := Handle(value, Cleared).emitted.value;
      var step := ListPages.HandleSearch(s, k, q, encode, net);
      step.state.searchQuery == "" && step.state.currentPage == 1 &&
      forall u <- step.requests :: u == Api.BaseUrl + Api.PagePath(k, 1)
  {
  }
}

=== FILE: seqs.dfy ===
/** Generic sequence operations of the JavaScript runtime used by the pages:
    `slice(0, n)`, `filter`, the insertion-ordered `Set`, and flattening. */
module Seqs {

  /** `xs.slice(0, n)`: the first `n` elements, or all of them when there are fewer. */
  function Take<T>(xs: seq<T>, n: nat): (r: seq<T>)
    ensures |r| == (if n < |xs| then n else |xs|)
    ensures r == xs[..|r|]
  {
    if n < |xs| then xs[..n] else xs
  }

  /** `a` can be obtained from `b` by deleting elements, keeping the order. */
  predicate IsSubsequence<T(==)>(a: seq<T>, b: seq<T>)
    decreases |b|
  {
    if |a| == 0 then true
    else if |b| == 0 then false
    else if a[0] == b[0] then IsSubsequence(a[1..], b[1..])
    else IsSubsequence(a, b[1..])
  }

  /** Every sequence is a subsequence of itself. */
  lemma {:induction false} SubsequenceOfSelf<T>(xs: seq<T>)
    ensures IsSubsequence(xs, xs)
    decreases |xs|
  {
    if |xs| > 0 {
      SubsequenceOfSelf(xs[1..]);
    }
  }

  /** `xs.filter(keep)`: exactly the elements that satisfy `keep`, each as
      often as in `xs`, in their original order. */
  function Filter<T(==,!new)>(xs: seq<T>, keep: T -> bool): (r: seq<T>)
    ensures forall i :: 0 <= i < |r| ==> keep(r[i])
    ensures forall x :: keep(x) ==> multiset(r)[x] == multiset(xs)[x]
    ensures IsSubsequence(r, xs)
    decreases |xs|
  {
    if |xs| == 0 then []
    else
      var rest := Filter(xs[1..], keep);
      assert xs == [xs[0]] + xs[1..];
      if keep(xs[0]) then [xs[0]] + rest else rest
  }

  /** Filtering keeps a sequence whose elements all pass unchanged. */
  lemma {:induction false} FilterAllKept<T(!new)>(xs: seq<T>, keep: T -> bool)
    requires forall i :: 0 <= i < |xs| ==> keep(xs[i])
    ensures Filter(xs, keep) == xs
    decreases |xs|
  {
    if |xs| > 0 {
      FilterAllKept(xs[1..], keep);
    }
  }

  /** Filtering twice by the same test is filtering once. */
  lemma FilterIdempotent<T(!new)>(xs: seq<T>, keep: T -> bool)
    ensures Filter(Filter(xs, keep), keep) == Filter(xs, keep)
  {
    FilterAllKept(Filter(xs, keep), keep);
  }

  /** Filtering depends only on which elements the test keeps. */
  lemma {:induction false} FilterCongruent<T(!new)>(xs: seq<T>, k1: T -> bool, k2: T -> bool)
    requires forall x :: k1(x) == k2(x)
    ensures Filter(xs, k1) == Filter(xs, k2)
    decreases |xs|
  {
    if |xs| > 0 {
      FilterCongruent(xs[1..], k1, k2);
    }
  }

  predicate NoDuplicates<T(==)>(xs: seq<T>) {
    forall i, j :: 0 <= i < j < |xs| ==> xs[i] != xs[j]
  }

  /** The position of the first occurrence of `x` in `xs`. */
  function FirstIndex<T(==)>(xs: seq<T>, x: T): (k: nat)
    requires x in xs
    ensures k < |xs| && xs[k] == x
    ensures forall j :: 0 <= j < k ==> xs[j] != x
  {
    if xs[0] == x then 0 else 1 + FirstIndex(xs[1..], x)
  }

  /** Appending an element does not move the first occurrence of earlier elements. */
  lemma FirstIndexSnoc<T>(xs: seq<T>, y: T, x: T)
    requires x in xs
    ensures FirstIndex(xs + [y], x) == FirstIndex(xs, x)
  {
    var k := FirstIndex(xs, x);
    assert (xs + [y])[k] == x;
  }

  /** `[...new Set(xs)]`: each distinct element once, in order of first appearance. */
  function Dedup<T(==,!new)>(xs: seq<T>): (r: seq<T>)
    ensures NoDuplicates(r)
    ensures forall x :: x in r <==> x in xs
    ensures forall i, j :: 0 <= i < j < |r| ==> FirstIndex(xs, r[i]) < FirstIndex(xs, r[j])
    decreases |xs|
  {
    if |xs| == 0 then []
    else
      var p := xs[..|xs| - 1];
      var y := xs[|xs| - 1];
      var r := Dedup(p);
      assert xs == p + [y];
      assert forall x :: x in r ==> FirstIndex(xs, x) == FirstIndex(p, x) by {
        forall x | x in r ensures FirstIndex(xs, x) == FirstIndex(p, x) {
          FirstIndexSnoc(p, y, x);
        }
      }
      if y in r then r
      else
        assert FirstIndex(xs, y) == |p|;
        r + [y]
  }

  /** Concatenation of a sequence of sequences. */
  function Flatten<T>(ss: seq<seq<T>>): (r: seq<T>)
    decreases |ss|
  {
    if |ss| == 0 then [] else ss[0] + Flatten(ss[1..])
  }

  /** An element is in the concatenation exactly when it is in one of the parts. */
  lemma {:induction false} InFlatten<T>(ss: seq<seq<T>>, x: T)
    ensures x in Flatten(ss) <==> exists i :: 0 <= i < |ss| && x in ss[i]
    decreases |ss|
  {
    if |ss| > 0 {
      InFlatten(ss[1..], x);
      assert forall i :: 1 <= i < |ss| ==> ss[i] == ss[1..][i - 1];
    }
  }
}

=== FILE: starship_detail.dfy ===
/** The starship detail page: the starship is fetched by id, then all of its
    pilots, then all of its films. */
module StarshipDetail {
  import opened Wrappers
  import opened Entities
  import Api
  import Text
  import Format
  import Detail

  datatype State = State(
    starship: Option<Starship>,
    pilots: seq<Person>,
    films: seq<Film>,
    loading: bool,
    error: Option<string>)

  function Initial(): (s: State)
    ensures s.loading && s.starship.None? && s.error.None?
  {
    State(None, [], [], true, None)
  }

  /** Every pilot URL, in order; none for a ship without pilots. */
  function PilotUrls(s: Starship): seq<string> {
    if |s.pilots| > 0 then s.pilots else []
  }

  /** Every film URL, in order; none for a ship without films. */
  function FilmUrls(s: Starship): seq<string> {
    if |s.films| > 0 then s.films else []
  }

  function StarshipUrl(id: string): string {
    Api.BaseUrl + Api.ByIdPath(Api.Starships, id)
  }

  datatype Step = Step(state: State, requests: seq<string>)

  /** The mount effect: the starship, then its pilots, then its films; a
      failure ends the run. */
  function Mount(id: string, ships: Api.Network<Starship>, people: Api.Network<Person>,
                 films: Api.Network<Film>): (r: Step)
    ensures !r.state.loading
    ensures var e := Api.FetchByUrl(StarshipUrl(id), ships);
      (e.Err? ==> r.requests == [StarshipUrl(id)] && r.state.error == Some(e.message) && r.state.starship.None?) &&
      (e.Ok? ==> r.state.starship == Some(e.value))
    ensures var e := Api.FetchByUrl(StarshipUrl(id), ships);
      e.Ok? ==>
        var ps := Detail.FetchAll(e.value.pilots, people);
        (ps.Err? ==> r.requests == [StarshipUrl(id)] + e.value.pilots && r.state.error == Some(ps.message)) &&
        (ps.Ok? ==>
          r.requests == [StarshipUrl(id)] + e.value.pilots + e.value.films && r.state.pilots == ps.value &&
          var fs := Detail.FetchAll(e.value.films, films);
          (fs.Err? ==> r.state.error == Some(fs.message)) &&
          (fs.Ok? ==> r.state.error.None? && r.state.films == fs.value))
    ensures r.state.error.None? ==>
      r.state.starship.Some? &&
      Detail.FetchAll(r.state.starship.value.films, films) == Ok(r.state.films)
  {
    var url := StarshipUrl(id);
    match Api.GetById(Api.Starships, id, ships)
    case Err(m) => Step(State(None, [], [], false, Some(m)), [url])
    case Ok(s) =>
      var pu := PilotUrls(s);
      match Detail.FetchAll(pu, people)
      case Err(m) => Step(State(Some(s), [], [], false, Some(m)), [url] + pu)
      case Ok(ps) =>
        var fu := FilmUrls(s);
        match Detail.FetchAll(fu, films)
        case Err(m) => Step(State(Some(s), ps, [], false, Some(m)), [url] + pu + fu)
        case Ok(fs) => Step(State(Some(s), ps, fs, false, None), [url] + pu + fu)
  }

  /** What the loaded page shows. */
  datatype Content = Content(
    manufacturer: string,
    cost: Format.Shown,
    cargo: Format.Label,
    knownPilots: nat,
    pilotLinks: seq<string>,
    filmLinks: seq<string>)

  /** The page body: the manufacturer badge is the text before the first
      comma, the cost is never abbreviated, and the "Known Pilots" figure
      counts the ship's pilot URLs whatever was fetched. */
  function ContentOf(s: Starship, pilots: seq<Person>, films: seq<Film>): (c: Content)
    ensures c.knownPilots == |s.pilots|
    ensures |c.manufacturer| <= |s.manufacturer| && c.manufacturer == s.manufacturer[..|c.manufacturer|]
    ensures forall i :: 0 <= i < |c.manufacturer| ==> c.manufacturer[i] != ','
    ensures |c.manufacturer| == |s.manufacturer| || s.manufacturer[|c.manufacturer|] == ','
    ensures !c.cost.Scaled?
    ensures s.cargoCapacity == "unknown" <==> c.cargo.value == Format.Literal("Unknown")
  {
    Text.FirstSegmentIsCommaFreePrefix(s.manufacturer);
    Content(
      Text.FirstSegment(s.manufacturer),
      Format.Plain(s.costInCredits),
      Format.MeasureOrUnknown(s.cargoCapacity, " kg"),
      |s.pilots|,
      Detail.Links("/characters", pilots, (x: Person) => x.url),
      Detail.Links("/films", films, (x: Film) => x.url))
  }

  function View(s: State): Detail.View<Content> {
    Detail.Render(s.loading, s.error, s.starship, (x: Starship) => ContentOf(x, s.pilots, s.films))
  }

  /** Once the mount effect has finished, the page shows either an error or
      the starship, never "Starship not found"; on a loaded page every pilot
      has a link. */
  lemma MountEndsInErrorOrContent(id: string, ships: Api.Network<Starship>, people: Api.Network<Person>,
                                  films: Api.Network<Film>)
    ensures var v := View(Mount(id, ships, people, films).state);
      v.Failed? || v.Content?
    ensures var s := Mount(id, ships, people, films).state;
      View(s).Content? <==> s.error.None?
    ensures var s := Mount(id, ships, people, films).state;
      View(s).Content? ==> |View(s).content.pilotLinks| == View(s).content.knownPilots
  {
  }
}

=== FILE: starships_page.dfy ===
/** The starship list page: the shared list-page state, plus the client-side
    class filter and the card's cost display. */
module StarshipsPage {
  import Text
  import Seqs
  import Format
  import ListPages
  import Api
  import Numbers
  import opened Wrappers
  import opened Entities

  /** `filteredStarships`: everything for `"all"`, otherwise exactly the ships
      whose class contains the filter, ignoring case, in their original
      order; ships without a class never match. */
  function FilterByClass(ships: seq<Starship>, filter: string): (r: seq<Starship>)
    ensures filter == ListPages.NoFilter ==> r == ships
    ensures filter != ListPages.NoFilter ==> forall i :: 0 <= i < |r| ==>
      r[i].starshipClass.Some? && Text.Contains(Text.ToLower(r[i].starshipClass.value), Text.ToLower(filter))
    ensures filter != ListPages.NoFilter ==> forall s: Starship :: ListPages.FieldMatches(s.starshipClass, filter) ==>
      multiset(r)[s] == multiset(ships)[s]
    ensures Seqs.IsSubsequence(r, ships)
  {
    ListPages.FilterByField(ships, (s: Starship) => s.starshipClass, filter)
  }

  /** What a starship's card shows. */
  datatype Card = Card(link: string, name: string, cost: Format.Shown)

  /** The card links into the starship routes. Its cost shows "Unknown" for
      `"unknown"`, text without a leading integer as it is, and otherwise the
      parsed number, abbreviated exactly from 1000 on. */
  function CardOf(s: Starship): (r: Card)
    ensures |r.link| > |"/starships/"| && r.link[..|"/starships/"|] == "/starships/"
    ensures r.cost.Scaled? ==> s.costInCredits != "unknown" && Numbers.ParseInt(s.costInCredits).Some?
    ensures s.costInCredits == "unknown" ==> r.cost == Format.Literal("Unknown")
    ensures s.costInCredits != "unknown" && Numbers.ParseInt(s.costInCredits).None? ==>
      r.cost == Format.Literal(s.costInCredits)
    ensures s.costInCredits != "unknown" && Numbers.ParseInt(s.costInCredits).Some? ==>
      var n := Numbers.ParseInt(s.costInCredits).value;
      (r.cost.Whole? || r.cost.Scaled?) && r.cost.n == n && (r.cost.Scaled? <==> n >= 1000)
  {
    Card(Api.DetailRoute("/starships", s.url), s.name, Format.Compact(s.costInCredits))
  }

  /** A ship with a canonical SWAPI URL links to its own detail route. */
  lemma CardOfCanonicalShip(s: Starship, id: string)
    requires |id| > 0 && Numbers.AllDigits(id)
    requires s.url == Api.BaseUrl + Api.ByIdPath(Api.Starships, id)
    ensures CardOf(s).link == "/starships/" + id
  {
    Api.DetailRouteOfCanonicalUrl("/starships", Api.Starships, id);
  }

  /** The page's content area: the shared list view over the filtered ships;
      an empty filtered list shows the "No starships found" message. */
  function View(s: ListPages.ListState<Starship>, classFilter: string): (v: ListPages.View<Starship>)
    ensures v.Cards? ==> v.cards == FilterByClass(s.items, classFilter) && v.cards != []
    ensures v.NothingFound? <==> !s.loading && s.error.None? && FilterByClass(s.items, classFilter) == []
  {
    ListPages.Render(s, FilterByClass(s.items, classFilter))
  }

  /** A filter that matches none of the loaded ships shows the empty message
      even when ships were loaded. */
  lemma NoMatchShowsNothingFound(s: ListPages.ListState<Starship>, classFilter: string)
    requires !s.loading && s.error.None? && classFilter != ListPages.NoFilter
    requires forall i :: 0 <= i < |s.items| ==> !ListPages.FieldMatches(s.items[i].starshipClass, classFilter)
    ensures View(s, classFilter).NothingFound?
  {
  }
}

=== FILE: text.dfy ===
/** String operations of the JavaScript runtime that the client relies on:
    `trim`, `toLowerCase`, `includes` and `split`. Strings are sequences of
    characters; only the ASCII cases of whitespace and letter case are modelled. */
module Text {

  /** The ASCII members of JavaScript's whitespace and line-terminator set:
      space, tab, line feed, vertical tab, form feed and carriage return. */
  predicate IsWhitespace(c: char) {
    c == ' ' || c == '\t' || c == '\n' || c == '\U{000B}' || c == '\U{000C}' || c == '\r'
  }

  /** Every character of `s` at an index in `[lo, hi)` is whitespace. */
  predicate WhitespaceBetween(s: string, lo: int, hi: int)
    requires 0 <= lo <= hi <= |s|
  {
    forall k :: lo <= k < hi ==> IsWhitespace(s[k])
  }

  /** `s` has no whitespace at either end. */
  predicate IsTrimmed(s: string) {
    s == [] || (!IsWhitespace(s[0]) && !IsWhitespace(s[|s| - 1]))
  }

  /** Reference definition of trimming: `r` is the part of `s` left after
      removing a whitespace prefix and a whitespace suffix, and `r` itself
      neither starts nor ends with whitespace. */
  ghost predicate IsTrimmingOf(r: string, s: string) {
    exists i, j :: 0 <= i <= j <= |s| && r == s[i..j]
      && WhitespaceBetween(s, 0, i) && WhitespaceBetween(s, j, |s|) && IsTrimmed(r)
  }

  /** Leading whitespace removed (the first step of `parseInt`, and half of `trim`). */
  function TrimStart(s: string): (r: string)
    ensures |r| <= |s| && r == s[|s| - |r|..]
    ensures WhitespaceBetween(s, 0, |s| - |r|)
    ensures r == [] || !IsWhitespace(r[0])
  {
    if |s| > 0 && IsWhitespace(s[0]) then TrimStart(s[1..]) else s
  }

  /** Whitespace in front of a string is all that `TrimStart` removes from it. */
  lemma {:induction false} TrimStartSkips(w: string, s: string)
    requires WhitespaceBetween(w, 0, |w|)
    ensures TrimStart(w + s) == TrimStart(s)
    decreases |w|
  {
    if |w| > 0 {
      assert (w + s)[0] == w[0];
      assert (w + s)[1..] == w[1..] + s;
      TrimStartSkips(w[1..], s);
    } else {
      assert w + s == s;
    }
  }

  /** Trailing whitespace removed. */
  function TrimEnd(s: string): (r: string)
    ensures |r| <= |s| && r == s[..|r|]
    ensures WhitespaceBetween(s, |r|, |s|)
    ensures r == [] || !IsWhitespace(r[|r| - 1])
  {
    if |s| > 0 && IsWhitespace(s[|s| - 1]) then TrimEnd(s[..|s| - 1]) else s
  }

  /** `String.prototype.trim`. */
  function Trim(s: string): (r: string)
    ensures IsTrimmingOf(r, s)
  {
    TrimEndOfTrimStart(s);
    TrimEnd(TrimStart(s))
  }

  /** Trimming the start and then the end leaves a trimming of `s`. */
  lemma TrimEndOfTrimStart(s: string)
    ensures IsTrimmingOf(TrimEnd(TrimStart(s)), s)
  {
    var t := TrimStart(s);
    var r := TrimEnd(t);
    var i := |s| - |t|;
    var j := i + |r|;
    assert s[i..j] == r by {
      assert t == s[i..];
    }
    assert WhitespaceBetween(s, j, |s|) by {
      forall k | j <= k < |s| ensures IsWhitespace(s[k]) {
        assert s[k] == t[k - i];
      }
    }
    TrimmingWitness(s, i, j);
  }

  /** Whitespace on both sides of a trimmed middle part makes that part a trimming. */
  lemma TrimmingWitness(s: string, i: int, j: int)
    requires 0 <= i <= j <= |s|
    requires WhitespaceBetween(s, 0, i) && WhitespaceBetween(s, j, |s|) && IsTrimmed(s[i..j])
    ensures IsTrimmingOf(s[i..j], s)
  {
  }

  /** A trimming that is empty means `s` is all whitespace. */
  lemma EmptyTrimming(s: string, i: int, j: int)
    requires 0 <= i <= j <= |s| && s[i..j] == []
    requires WhitespaceBetween(s, 0, i) && WhitespaceBetween(s, j, |s|)
    ensures WhitespaceBetween(s, 0, |s|)
  {
  }

  /** Where a non-empty trimming starts and ends is fixed by `s`. */
  lemma TrimmingBounds(s: string, i1: int, j1: int, i2: int, j2: int)
    requires 0 <= i1 < j1 <= |s| && 0 <= i2 < j2 <= |s|
    requires WhitespaceBetween(s, 0, i1) && WhitespaceBetween(s, j1, |s|) && IsTrimmed(s[i1..j1])
    requires WhitespaceBetween(s, 0, i2) && WhitespaceBetween(s, j2, |s|) && IsTrimmed(s[i2..j2])
    ensures i1 == i2 && j1 == j2
  {
    assert s[i1..j1][0] == s[i1] && s[i2..j2][0] == s[i2];
    assert s[i1..j1][j1 - i1 - 1] == s[j1 - 1] && s[i2..j2][j2 - i2 - 1] == s[j2 - 1];
  }

  /** At most one string is a trimming of `s`, so `IsTrimmingOf` pins `Trim` down. */
  lemma TrimmingIsUnique(s: string, r1: string, r2: string)
    requires IsTrimmingOf(r1, s) && IsTrimmingOf(r2, s)
    ensures r1 == r2
  {
    var i1, j1 :| 0 <= i1 <= j1 <= |s| && r1 == s[i1..j1]
      && WhitespaceBetween(s, 0, i1) && WhitespaceBetween(s, j1, |s|) && IsTrimmed(r1);
    var i2, j2 :| 0 <= i2 <= j2 <= |s| && r2 == s[i2..j2]
      && WhitespaceBetween(s, 0, i2) && WhitespaceBetween(s, j2, |s|) && IsTrimmed(r2);
    if i1 == j1 {
      EmptyTrimming(s, i1, j1);
    } else if i2 == j2 {
      EmptyTrimming(s, i2, j2);
    } else {
      TrimmingBounds(s, i1, j1, i2, j2);
    }
  }

  /** Trimming an already trimmed string changes nothing. */
  lemma TrimOfTrimmed(s: string)
    requires IsTrimmed(s)
    ensures Trim(s) == s
  {
    assert IsTrimmingOf(s, s) by {
      assert s == s[0..|s|];
    }
    TrimmingIsUnique(s, Trim(s), s);
  }

  /** Every result of `Trim` is trimmed, so trimming is idempotent. */
  lemma TrimIdempotent(s: string)
    ensures Trim(Trim(s)) == Trim(s)
  {
    var r := Trim(s);
    var i, j :| 0 <= i <= j <= |s| && r == s[i..j]
      && WhitespaceBetween(s, 0, i) && WhitespaceBetween(s, j, |s|) && IsTrimmed(r);
    TrimOfTrimmed(r);
  }

  /** ASCII case folding of one character. */
  function LowerChar(c: char): char {
    if 'A' <= c <= 'Z' then (c as int + 32) as char else c
  }

  /** `String.prototype.toLowerCase`, ASCII letters only. */
  function ToLower(s: string): (r: string)
    ensures |r| == |s|
    ensures forall i :: 0 <= i < |s| ==> r[i] == LowerChar(s[i])
  {
    seq(|s|, i requires 0 <= i < |s| => LowerChar(s[i]))
  }

  /** Lower-casing twice is lower-casing once. */
  lemma ToLowerIdempotent(s: string)
    ensures ToLower(ToLower(s)) == ToLower(s)
  {
    assert forall c :: LowerChar(LowerChar(c)) == LowerChar(c);
  }

  /** `s.includes(sub)`: `sub` occurs in `s` at some position. */
  predicate Contains(s: string, sub: string) {
    exists i :: 0 <= i <= |s| - |sub| && OccursAt(s, sub, i)
  }

  /** `sub` occurs in `s` starting at index `i`. */
  predicate OccursAt(s: string, sub: string, i: int)
    requires 0 <= i <= |s| - |sub|
  {
    s[i..i + |sub|] == sub
  }

  /** Joins `parts` with `sep` between consecutive parts (`Array.prototype.join`). */
  function Join(parts: seq<string>, sep: string): string {
    if |parts| == 0 then ""
    else if |parts| == 1 then parts[0]
    else parts[0] + sep + Join(parts[1..], sep)
  }

  /** `s.split(sep)` for a non-empty separator: the maximal pieces between the
      leftmost non-overlapping occurrences of `sep`. `"".split(sep)` is `[""]`. */
  function Split(s: string, sep: string): (parts: seq<string>)
    requires |sep| > 0
    ensures |parts| >= 1
    ensures |parts[0]| <= |s| && parts[0] == s[..|parts[0]|]
    ensures forall i :: 0 <= i < |parts| ==> !Contains(parts[i], sep)
    decreases |s|
  {
    if |s| < |sep| then [s]
    else if s[..|sep|] == sep then [""] + Split(s[|sep|..], sep)
    else
      var rest := Split(s[1..], sep);
      ExtendedPieceFreeOfSep(s, rest[0], sep);
      [[s[0]] + rest[0]] + rest[1..]
  }

  /** A piece free of `sep` stays free of it when the character before it is
      put in front, provided the text does not start with `sep` there. */
  lemma ExtendedPieceFreeOfSep(s: string, t: string, sep: string)
    requires |sep| > 0 && |s| >= 1 && |t| < |s| && t == s[1..1 + |t|]
    requires !Contains(t, sep)
    requires |s| < |sep| || s[..|sep|] != sep
    ensures !Contains([s[0]] + t, sep)
  {
    var u := [s[0]] + t;
    assert u == s[..|u|];
    forall i | 0 <= i <= |u| - |sep| ensures !OccursAt(u, sep, i) {
      if i == 0 {
        assert u[..|sep|] == s[..|sep|];
      } else {
        assert u[i..i + |sep|] == t[i - 1..i - 1 + |sep|];
        assert !OccursAt(t, sep, i - 1);
      }
    }
  }

  /** Putting a character in front of the first part puts it in front of the join. */
  lemma JoinConsFirst(c: char, parts: seq<string>, sep: string)
    requires |parts| >= 1
    ensures Join([[c] + parts[0]] + parts[1..], sep) == [c] + Join(parts, sep)
  {
    var ps := [[c] + parts[0]] + parts[1..];
    if |parts| > 1 {
      assert ps[1..] == parts[1..];
    }
  }

  /** Splitting and joining again with the same separator gives back the string. */
  lemma {:induction false} JoinSplit(s: string, sep: string)
    requires |sep| > 0
    ensures Join(Split(s, sep), sep) == s
    decreases |s|
  {
    if |s| < |sep| {
    } else if s[..|sep|] == sep {
      var rest := Split(s[|sep|..], sep);
      JoinSplit(s[|sep|..], sep);
      assert ([""] + rest)[1..] == rest;
      assert Join([""] + rest, sep) == "" + sep + Join(rest, sep);
      assert s == s[..|sep|] + s[|sep|..];
    } else {
      var rest := Split(s[1..], sep);
      JoinSplit(s[1..], sep);
      JoinConsFirst(s[0], rest, sep);
      assert s == [s[0]] + s[1..];
    }
  }

  /** `s.split(",")[0]`: the text before the first comma (all of `s` when it has none). */
  function FirstSegment(s: string): (r: string)
  {
    Split(s, ",")[0]
  }

  /** The first segment is the longest comma-free prefix. */
  lemma {:induction false} FirstSegmentIsCommaFreePrefix(s: string)
    ensures |FirstSegment(s)| <= |s| && FirstSegment(s) == s[..|FirstSegment(s)|]
    ensures forall i :: 0 <= i < |FirstSegment(s)| ==> FirstSegment(s)[i] != ','
    ensures |FirstSegment(s)| == |s| || s[|FirstSegment(s)|] == ','
    decreases |s|
  {
    if |s| < 1 {
    } else if s[..1] == "," {
      assert s[0] == ',';
    } else {
      FirstSegmentIsCommaFreePrefix(s[1..]);
      assert FirstSegment(s) == [s[0]] + FirstSegment(s[1..]);
    }
  }
}

=== FILE: wrappers.dfy ===
/** Option and Result, the two failure-carrying wrappers the model uses in place
    of JavaScript's `null`/`undefined` and of thrown `Error`s. */
module Wrappers {

  /** `None` stands for a JavaScript `null`, `undefined` or `NaN`. */
  datatype Option<+T> = None | Some(value: T) {

    /** The wrapped value, or `default` when there is none. */
    function GetOr(default: T): T {
      match this
      case Some(v) => v
      case None => default
    }
  }

  /** The outcome of an operation that may throw: `Err` carries the
      `message` of the thrown `Error`. */
  datatype Result<+T> = Ok(value: T) | Err(message: string) {

    predicate IsFailure() {
      Err?
    }

    function PropagateFailure<U>(): Result<U>
      requires Err?
    {
      Err(message)
    }

    function Extract(): T
      requires Ok?
    {
      value
    }
  }
}
